=== FILE: README.md ===
# SeaVoice response interpreters, in Dafny

SeaVoice is a chat front end for a generative-text service that answers
questions about ocean data. The service streams its reply as text chunks.
A reply may embed a fenced JSON block (opened by the literal "```json"),
and that block becomes a chart, map or table. This project models the
parts of the app that interpret those replies, together with the small
state machines around them:

- `DataExplorer` (explorer.dfy) is the incremental splitter of the data
  explorer page. After each chunk, the assistant message shows the text
  before the first marker, the summary is frozen once the marker appears,
  and a speculative parse previews the payload. At the end of the stream
  there are three outcomes: no marker, a payload that parses, or one that
  does not. The module also covers clear, clear-visualization and load.
- `Export` (export.dfy) flattens a visualization into rows, builds the
  download file name, and serialises rows as CSV.
- `App` (app.dfy) is the batch variant on the main page. It matches the
  regular expression /```json\s*([\s\S]*?)\s*```/ over the whole response.
  It also models load and clear for the saved chat.
- `ChatOnly` (chat_only.dfy) is the page that has no payload: it only
  accumulates text.
- `Trivia` (trivia.dfy) is the ten-question trivia game. It covers
  question extraction, score, hint and question-count rules, and a
  run-level invariant over every sequence of clicks the screen enables.
- `VisualizationPanel`, `ChatPanel` and `FilterPanel` hold the panels'
  pure guards, their tag dispatch and their single-field filter updates.
- `Gemini` (gemini.dfy) covers the API key check, the language-name
  fallback and the persona branch of the system instruction. It also
  holds the chat cache keyed by language and persona, which is modelled
  as an explicit registry value. This is api/gemini.ts; the pages
  themselves call a different service (see "Left out").
- `Types`, `Transcript`, `Text` and `Wrappers` hold shared pieces:
  - the payload and message types;
  - the message-list updates the three chat pages share;
  - JavaScript string semantics (`trim` and `\s` share one white-space
    set, `indexOf`, `split(...)[0]`, `join`/`split`);
  - `Option` and `Result`.

Modelling conventions:

- `JSON.parse` is a function parameter returning `Option`, where `None`
  means it threw. The code casts the parsed value without checking its
  shape, so the model does not check the shape either.
- The stream is a finite `Stream(chunks, fails)`. `fails` says that the
  transport raised an error after those chunks.
- Message ids come from the clock, so they are parameters. Lemmas that
  need distinct ids say so with `FreshId`.
- The browser confirm dialog becomes a `confirmed: bool` parameter.
- Local storage becomes the `stored: Option<string>` argument. App's load
  also returns the new slot contents, because corrupt text removes the
  key.

What the code does, and the model with it:

- No request is cancelled when a new one starts. Only the chat panel's
  loading guard prevents a second request.
- Parsed payloads are not validated, so a density of 1.4 is accepted.
- There is no persona table: no persona check decides which payloads are
  legal.
- The chat cache is a module-level map, modelled as a registry value that
  is threaded through the calls.
- `types.ts` declares no `region`, `depthRange` or `floatId` filter
  field and no `Persona` type. Those shapes are taken from their use
  sites.

## Model

| member | source | states |
|---|---|---|
| Text.Trim | components/DataExplorerPage.tsx:83 | `trim()`: the result is the input with leading and trailing white space removed, and it is a contiguous infix of the input. It is empty iff the input is all white space; otherwise neither of its ends is white space |
| Text.IndexOfExtend | components/DataExplorerPage.tsx:78-80 | Appending text never moves the first occurrence of a pattern already present, and never creates an earlier one |
| Text.BeforeExcludes | components/DataExplorerPage.tsx:87-88 | The text before the first occurrence of a pattern does not contain that pattern |
| Text.FirstEnclosedSound | App.tsx:50-51 | A lazy fenced span starts at the leftmost opening delimiter. Its content holds no closing delimiter, and the closing delimiter follows it |
| Text.FirstEnclosedComplete | App.tsx:50-53 | A lazy fenced span is missing exactly when no opening delimiter is followed by a closing one |
| Text.SplitJoin | components/DataExplorerPage.tsx:26 | Splitting a join at a separator whose first character occurs in no piece gives the pieces back |
| Types.FromTagName | types.ts:7-15 | A tag read back from a string is named by exactly that string, so no string reads as a tag with another name |
| Types.TagNameRoundTrip | types.ts:7-15 | Every tag's name reads back as that tag |
| Transcript.SetText | components/DataExplorerPage.tsx:78 | The per-message update keeps length, ids and senders. Exactly the messages with the id get the new text; every other message is unchanged |
| Transcript.SetTextTwice | components/DataExplorerPage.tsx:116-118 | A later overwrite of the same message discards the earlier one |
| Transcript.OnlyPlaceholderChanges | components/DataExplorerPage.tsx:60-71 | A send appends one user message and one empty assistant placeholder. Overwriting the placeholder leaves the earlier transcript and the user message intact |
| Transcript.AccumulateShowsConcat | components/ChatOnlyPage.tsx:44-50 | While streaming, the placeholder shows the concatenation of the chunks received so far, and nothing else changes |
| Transcript.PlaceholderOnly | components/ChatOnlyPage.tsx:52-55 | After any chunks, a final overwrite of the placeholder yields the pre-send transcript plus the user message and the new text |
| DataExplorer.InitialFilters | components/DataExplorerPage.tsx:35-41 | The initial filters are empty dates, "all" sensor and region, an empty depth range and an empty float id |
| DataExplorer.RequestFor | components/DataExplorerPage.tsx:74 | The request carries the pre-send transcript, the page's language and filters, and the ocean_expert persona |
| DataExplorer.SendMessage | components/DataExplorerPage.tsx:57-123 | Blank input leaves the page unchanged. Otherwise the send always ends with loading off, whatever the stream did |
| DataExplorer.FeedTracks | components/DataExplorerPage.tsx:76-96 | Loop invariant: the accumulator is the concatenation of the chunks. The placeholder shows the text before the first marker (all of it before the marker appears), and the summary is set iff the marker is present. The payload text is the text after the marker, cut at the first fence |
| DataExplorer.SplitPointFrozen | components/DataExplorerPage.tsx:78-85 | Once the marker is in the first k chunks, its first index, the displayed text and the summary stay as they were at k for every later chunk |
| DataExplorer.PayloadFrozen | components/DataExplorerPage.tsx:86-88 | Once a fence follows the marker, more text leaves the payload text as it was, and it stays complete |
| DataExplorer.PreviewFrozen | components/DataExplorerPage.tsx:86-95 | Once a fence after the marker is in the first k chunks, every later chunk keeps the payload text and the previewed visualization as they were at k. When that payload parses, the parsed value is what shows |
| DataExplorer.PayloadHasNoTrailingFence | components/DataExplorerPage.tsx:86-88 | The payload text never ends with a fence |
| DataExplorer.TrailingFenceStripIsDead | components/DataExplorerPage.tsx:100-102 | After the loop the block never ends with a fence, whatever the chunks were, so the strip never applies |
| DataExplorer.SendOutcome | components/DataExplorerPage.tsx:99-113 | The streamed send equals a definition on the whole response: no marker gives no summary and the "Conversational Response" welcome. Otherwise the summary is the trimmed text before the marker and the visualization is the parsed payload, or the render-error welcome when it fails to parse |
| DataExplorer.ChunkingIrrelevant | components/DataExplorerPage.tsx:76-113 | Any two chunkings of the same total text give the same final page |
| DataExplorer.TransportErrorOutcome | components/DataExplorerPage.tsx:115-119 | A transport error replaces only the placeholder with the fixed error text and shows the "Error" welcome. The summary keeps what the chunks before the error froze |
| DataExplorer.ClearSession | components/DataExplorerPage.tsx:156-163 | A confirmed clear resets transcript, filters, visualization and summary and keeps the language. An unconfirmed clear changes nothing |
| DataExplorer.ClearVisualization | components/DataExplorerPage.tsx:165-168 | The visualization returns to the welcome and the summary to none. Transcript, filters and language are kept |
| DataExplorer.LoadSession | components/DataExplorerPage.tsx:136-154 | A stored snapshot replaces every field, with each missing or falsy field replaced by its initial value. A falsy stored summary becomes none, and the loading flag is kept. Missing or unparsable storage leaves the page unchanged |
| Export.Sanitize | components/DataExplorerPage.tsx:198 | The file name has the title's length. White space and "/" become "_", and every other character is kept |
| Export.ExportData | components/DataExplorerPage.tsx:170-207 | Welcome, loading and data-less visualizations export nothing, and so do empty flattened lists. Otherwise the download holds the flattened rows, is non-empty, and is named after the sanitised title plus the format's extension. Its content is the CSV of those rows, or their JSON text |
| Export.CsvDownloadLines | components/DataExplorerPage.tsx:192-203 | A CSV download of a data visualization is the first row's keys as a header line followed by one line per flattened row |
| Export.MapComparisonExport | components/DataExplorerPage.tsx:178-183 | A comparison exports map A's rows, each tagged with A's title, followed by map B's rows tagged with B's title, so its length is |A| + |B| |
| Export.TrajectoryRowsLength | components/DataExplorerPage.tsx:184-188 | A trajectory export has one row per path point over all trajectories |
| Export.TrajectoryRowsAt | components/DataExplorerPage.tsx:184-188 | The row for point p of trajectory t sits after all earlier trajectories' points and carries that point together with the trajectory's id as float_id |
| Export.ConvertToCsv | components/DataExplorerPage.tsx:13-14 | No rows give the empty text |
| Export.CsvSplitsIntoLines | components/DataExplorerPage.tsx:15-26 | For non-empty data, splitting the CSV at CRLF yields the header line followed by exactly one line per row |
| Export.CsvUsesFirstRowKeys | components/DataExplorerPage.tsx:15-24 | Only the first row's keys matter. Two data lists of the same length whose first rows have the same keys, and whose rows agree on those keys, give the same text, whatever other fields the later rows carry |
| App.MatchJsonBlockSpan | App.tsx:50-51 | The match starts at the leftmost "```json" and ends at the first fence that starts after the marker (the lazy group): no fence starts between the marker's end and the closing fence, and the inner text holds no fence |
| App.MatchJsonBlockGroup | App.tsx:50-51 | The group is the inner text without the white space on either side; neither of its ends is white space |
| App.MatchJsonBlockComplete | App.tsx:50-53 | There is no match exactly when no marker is followed by a fence |
| App.SendMessage | App.tsx:27-83 | Blank input leaves the state unchanged. Otherwise loading ends off and filters and language are kept |
| App.SendParsed | App.tsx:53-61 | A block whose group parses becomes the visualization, and the assistant message becomes the fixed acknowledgement. The summary is the whole response with the match cut out, then trimmed |
| App.SendParseFailure | App.tsx:63-66 | A block whose group does not parse gives the fixed apology and the "Error processing data" welcome, with no summary |
| App.SendNoBlock | App.tsx:68-72 | Without a non-empty block the assistant message is the whole response and there is no summary. The visualization returns to the welcome only if the pre-send transcript held exactly one message |
| App.TransportErrorOutcome | App.tsx:75-79 | A transport error replaces only the placeholder's text and shows the "An error occurred" welcome |
| App.SendKeepsPaired | App.tsx:30-39 | Every send keeps an even-length transcript even |
| App.NoBlockKeepsLoading | App.tsx:70-72 | From an even-length transcript, a reply without a block, or with an empty group, leaves the loading visualization showing |
| App.LoadChat | App.tsx:102-125 | The snapshot is accepted only when messages, visualization, filters and language are all truthy, and a falsy summary becomes none. An incomplete snapshot changes nothing. Corrupt text removes the storage slot |
| App.ClearChat | App.tsx:127-142 | A confirmed clear empties the transcript, shows the welcome, drops the summary, resets the filters and keeps the language |
| ChatOnly.RequestFor | components/ChatOnlyPage.tsx:36-43 | The request uses the summarizer persona, the all-empty filters and the pre-send transcript |
| ChatOnly.SendMessage | components/ChatOnlyPage.tsx:22-59 | Blank input leaves the page unchanged. Otherwise loading ends off and the language is kept |
| ChatOnly.SendOutcome | components/ChatOnlyPage.tsx:25-55 | A send appends the user message and one assistant message. That message holds the concatenated chunks, or the fixed error text if the stream failed |
| ChatOnly.WelcomeHiddenAfterSend | components/ChatPanel.tsx:38 | After a non-blank send the welcome is no longer shown |
| ChatOnly.LoadChat | components/ChatOnlyPage.tsx:72-87 | Missing messages default to the empty list and a missing language to "en". Missing or corrupt storage changes nothing |
| ChatOnly.ClearChat | components/ChatOnlyPage.tsx:89-93 | A confirmed clear empties the transcript and keeps the language |
| Trivia.InitialGame | components/OceanTriviaGame.tsx:22-39 | The game starts idle and satisfies the invariant. Its high score is the saved one, or 0 |
| Trivia.FetchRequest | components/OceanTriviaGame.tsx:53-67 | A question request has no history, the empty filters and the game_master persona |
| Trivia.MatchTriviaBlockSound | components/OceanTriviaGame.tsx:74 | The group begins after the leftmost "```json" line and runs to the first closing fence line after it, which it does not contain |
| Trivia.MatchTriviaBlockComplete | components/OceanTriviaGame.tsx:74-75 | There is no group exactly when no opening line is followed by a closing line |
| Trivia.ExtractQuestion | components/OceanTriviaGame.tsx:74-85 | A non-empty group that parses supplies the question. Only without a non-empty group does a parsing whole response supply it. A non-empty group that fails to parse is a block syntax error, and nothing else is. With no non-empty group, an unparsable response is the invalid-format error, and nothing else is |
| Trivia.BareResponseParsed | components/OceanTriviaGame.tsx:74-85 | Bare JSON is accepted: when no opening line is ever followed by a closing line, including when there is no opening line at all, the whole response's parse is the question, or its failure is the invalid-format error |
| Trivia.BeginFetch | components/OceanTriviaGame.tsx:46-50 | A fetch clears the selection, the correctness flag, the error and the hint, and keeps the score, the count and the state |
| Trivia.CompleteFetch | components/OceanTriviaGame.tsx:69-91 | A fetch ends with loading off. A stream failure records the transport error and keeps the old question; otherwise the extracted question or error is stored |
| Trivia.StartGame | components/OceanTriviaGame.tsx:94-101 | Starting sets score 0, question 1, playing, hint unused and no new high score, then begins a fetch |
| Trivia.Record | components/OceanTriviaGame.tsx:106-111 | An answer is recorded as selected. It is correct iff it equals the question's answer, and it earns five points exactly then |
| Trivia.AnswerAsWritten | components/OceanTriviaGame.tsx:103-112 | The click handler as written: a truthy selection or a missing question ignores the click, and any other click is recorded |
| Trivia.Answer | components/OceanTriviaGame.tsx:103-112 | The click handler with the intended guard: any recorded selection or a missing question ignores the click, and any other click is recorded |
| Trivia.AnswerOnce | components/OceanTriviaGame.tsx:104 | A second click after an answer changes nothing, so a question scores at most once |
| Trivia.UseHint | components/OceanTriviaGame.tsx:114-119 | A hint is used iff it was already used or the score is at least 2, it costs 2 only when newly applied, and the score never goes negative |
| Trivia.HintOnce | components/OceanTriviaGame.tsx:115-117 | A second hint request changes nothing |
| Trivia.NextQuestion | components/OceanTriviaGame.tsx:121-133 | Below ten questions, next adds one to the count and fetches. At ten the game finishes, the high score becomes the maximum of old and current, and the new-high flag is set iff the score was strictly greater |
| Trivia.PlayAgain | components/OceanTriviaGame.tsx:135-142 | Play again returns to idle with score 0, count 0, no question, no error and hint unused. High score and the new-high flag are kept |
| Trivia.ApplyKeepsInv | components/OceanTriviaGame.tsx:145-253 | Every click the screen enables, and every fetch result, keeps the score and count invariant |
| Trivia.RunKeepsInv | components/OceanTriviaGame.tsx:41-43 | Over any playable sequence of events the invariant holds, so the score stays between 0 and 50 |
| Trivia.EmptyOptionScoresTwice | components/OceanTriviaGame.tsx:104 | With the guard as written, an empty-string correct option can be clicked twice on the same question for 10 points, which breaks the invariant |
| VisualizationPanel.ExplorerSummaryShown | components/VisualizationPanel.tsx:48-53 | After a completed explorer stream the "AI Analysis" box shows iff the reply has the marker, non-blank text before it, and a payload that parses to a visualization with data. A reply without the marker therefore hides it |
| VisualizationPanel.ExplorerErrorHidesSummary | components/VisualizationPanel.tsx:48-53 | After an explorer transport error the box is hidden, even when the chunks before the error froze a non-empty summary |
| VisualizationPanel.AppErrorHidesSummary | components/VisualizationPanel.tsx:48-53 | After a transport error on the main page the box is hidden |
| VisualizationPanel.Render | components/VisualizationPanel.tsx:55-76 | Welcome and loading render with their own title. Both chart tags go to the chart renderer, and each other known tag goes to its own renderer. Any other tag renders the "Unsupported Visualization" welcome |
| VisualizationPanel.DataGoesToRenderer | components/VisualizationPanel.tsx:61-73 | A payload with data and a known tag goes to a renderer, never to a welcome or loading screen, and the renderer receives the payload unchanged |
| ChatPanel.HandleSubmit | components/ChatPanel.tsx:26-32 | A submit sends iff the trimmed input is non-empty and nothing is loading. The raw input is sent, and the input is cleared only on a send |
| ChatPanel.DisabledIffNothingSent | components/ChatPanel.tsx:80 | The send button is disabled exactly when a submit would send nothing |
| FilterPanel.HandleDateChange | components/FilterPanel.tsx:11-16 | A date change sets only the chosen end of the range; the other end and every other filter field are kept |
| FilterPanel.DateChangeUndo | components/FilterPanel.tsx:11-16 | Restoring the old value of the changed end restores the filters |
| FilterPanel.DateChangesCommute | components/FilterPanel.tsx:11-16 | Changing the start and then the end gives the same filters as the reverse order |
| FilterPanel.HandleSensorChange | components/FilterPanel.tsx:18-20 | A sensor change sets only the sensor type; dates and all other fields are kept |
| FilterPanel.SelectStaysOnOptions | components/FilterPanel.tsx:11-20 | Over any sequence of date and sensor changes whose drop-down choices come from the four options, starting from an offered sensor, the controlled select stays on an offered option. Region, depth range and float id are never touched |
| Gemini.ApiKey | api/gemini.ts:10-17 | Initialisation succeeds iff the key is present and non-empty; otherwise it fails with the fixed message |
| Gemini.LanguageName | api/gemini.ts:25-37 | A code in the table gets the table's name for it, and any other code gets "English". So the name is "English" exactly when the code is "en" or outside the table, and it is always one of the table's names |
| Gemini.SystemInstruction | api/gemini.ts:39-140 | ocean_expert, summarizer and game_master each select their own instruction, and every other persona gets the conversational one. The language name is passed through |
| Gemini.ChatKeyInjective | api/gemini.ts:143 | When neither persona contains "-", equal cache keys mean equal language and persona |
| Gemini.ChatKeyCollides | api/gemini.ts:143 | With a "-" in the persona, two different pairs share one cache key |
| Gemini.EmptyRegistry | api/gemini.ts:23 | The cache starts empty and valid |
| Gemini.GetChat | api/gemini.ts:142-157 | A cached key returns its chat and leaves the cache unchanged. A new key creates exactly one chat, on the model with the persona's instruction, and adds it under that key |
| Gemini.GetChatKeepsValid | api/gemini.ts:142-157 | Lookups keep serials distinct and counted, and a repeated lookup returns the same chat |
| Gemini.CachedKeys | api/gemini.ts:142-157 | After any sequence of lookups, the cache holds exactly the keys looked up together with the keys it held before |
| Gemini.OneChatPerKey | api/gemini.ts:142-157 | Any sequence of lookups keeps the cache valid: the number of chats created equals the number of keys, and no two keys share a chat |
| Gemini.StreamResponse | api/gemini.ts:164-178 | After the call the cache holds a chat for the pair, and the result is the send of the message on that chat, a failure included. A cached pair leaves the cache unchanged; a new pair adds exactly its key and keeps every other chat |
| Gemini.StreamAgain | api/gemini.ts:142-178 | A second message for the same pair is sent on the same chat and leaves the cache as the first call left it, whether or not the first send failed |

## Left out

- services/geminiService.ts: not part of this model. Every page imports its `sendMessageStream` (DataExplorerPage.tsx:8, ChatOnlyPage.tsx:5, OceanTriviaGame.tsx:2, App.tsx:7), not `streamGeminiResponse` from api/gemini.ts. That function takes only the message, history and language (geminiService.ts:84-88). It keys its chat cache by language alone (geminiService.ts:16-17), and it rethrows any failure as one fixed message (geminiService.ts:98-100). The callers pass five arguments, or four at App.tsx:42, so the filters and persona are dropped, and the history is unused.
- `Gemini`: models api/gemini.ts, which no file in the code base calls. Its per-persona instruction and its language-and-persona cache are therefore not what the pages reach at run time.
- `DataExplorer.RequestFor`, `ChatOnly.RequestFor`, `Trivia.FetchRequest`: state the arguments each page passes. The service they call ignores the persona, the filters and the history, so these requests do not determine the reply.
- The system-instruction prose is not modelled. `Gemini.SystemInstruction` returns which branch was chosen, with the language name.
- The SDK call that starts a stream is a function parameter of `Gemini.StreamResponse`. Each page takes the chunks of its reply as a given `Stream` parameter, whatever service produced them.
- A missing API key throws at module load. `Gemini.ApiKey` models this as a `Result` failure.
- App.tsx:42 calls the stream with four arguments and no persona, so App's request is not modelled. The reply is taken as given.
- The d3 and recharts renderers and the info modal are not modelled. They are projections, floats and DOM work. Rendering stops at the `VisualizationPanel.View` chosen.
- Local storage, `alert`, `confirm`, `Blob` and the anchor download are not modelled; only the pure decisions around them are. The save handlers (DataExplorerPage.tsx:125-134, App.tsx:85-100) and the high-score write (OceanTriviaGame.tsx:129) only write storage.
- Async interleaving is not modelled. The code has no cancellation, so a stream is a finite chunk sequence processed to its end.
- `JSON.parse` and `JSON.stringify` are function parameters. JSON that parses to a non-object, such as `null`, is folded into the parser's result type.
- Strings are sequences of characters. UTF-16 code units are not distinguished.
- Object key order in `Object.keys` is taken as the row's stored field order. JavaScript's hoisting of integer-like keys is not modelled.
- `Trivia.InitialGame`: the saved high score is given already parsed. `parseInt` yielding NaN is not modelled.
- `VisualizationPanel.Render`: assumes `VisualizationType` has `TRAJECTORY_MAP` and `TABLE_VIEW`. types.ts:7-15 declares neither, so at run time both `case` labels at VisualizationPanel.tsx:70-73 compare against `undefined`, and a `trajectory_map` or `table_view` payload renders the "Unsupported Visualization" welcome.
- `Export.Flatten`: rebuilds each profile, time-series, map and density row with a fixed field list, whereas DataExplorerPage.tsx:189-190 exports the parsed objects as they are, with their own key order and any extra keys. Likewise for a map comparison it builds `MapRow(p)` followed by `source`, whereas DataExplorerPage.tsx:180-181 spread the parsed point (`{...d, source: title}`): the CSV header then follows the object's own key order and extra keys, and a `source` key already in the object keeps its position with the title as its value. It also assumes the `TRAJECTORY_MAP` case at DataExplorerPage.tsx:184-188 is reachable; since types.ts:7-15 lacks that member, a trajectory payload takes the default branch at run time and exports the raw trajectory objects.
- `Gemini.LanguageName`: the table is looked up as a plain map. The JavaScript lookup at api/gemini.ts:145 also reads inherited properties, so a code such as "constructor" yields a function rather than "English".
- `Types.VisualizationData`: known tags always carry their data shape. A payload with a known tag but missing or mis-shaped data, which the cast would accept, is not represented. An unknown tag's `data` is either absent or falsy (`None`) or an array of rows; a truthy non-array `data` (an object, a non-empty string, a non-zero number) is not represented. For such a payload VisualizationPanel.tsx:48-53 would show the summary box, and the export at DataExplorerPage.tsx:171-205 would download its JSON text or, for CSV, throw (at `Object.keys(data[0])` for an object or number, at `data.map` for a string); the model can only encode it as `None`, which hides the box and exports nothing.
- `Export.ConvertToCsv`: its own contract states only the empty case. The line structure and headers are stated by `Export.CsvSplitsIntoLines` and `Export.CsvUsesFirstRowKeys`.
- `Export.CsvSplitsIntoLines`: stated only when no key or stringified value holds a carriage return. A raw carriage return inside a key would add lines, and `JSON.stringify` escapes it inside strings.
- App.tsx:70 resets the visualization only when the pre-send transcript has exactly one message. `App.NoBlockKeepsLoading` shows that this never happens from an even-length transcript, such as the empty one every session starts with. It is kept as written.

## Findings

| source | as written | input that shows it | evidently intended | confidence | as-written member | corrected member |
|---|---|---|---|---|---|---|
| components/OceanTriviaGame.tsx:104 | The answer guard tests the recorded selection for truthiness, so a recorded empty-string answer counts as no answer. The option buttons at line 231 use the same test | A question whose options include "" and whose answer is "": clicking "" twice on one question scores 10 | Ignore every click once any answer is recorded (selection not null), so a question scores at most 5 | not executed | Trivia.EmptyOptionScoresTwice | Trivia.RunKeepsInv |

=== FILE: app.dfy ===
/**
 * The single-page chat's batch interpreter: the assistant message shows the
 * whole accumulated text while streaming; after the stream the first
 * "```json … ```" block is located with a lazy regular expression, parsed,
 * and removed from the text to form the summary.  Also session loading and
 * clearing.
 */
module App {
  import opened Wrappers
  import opened Text
  import opened Types
  import opened Transcript

  const JsonMarker: string := "```json"
  const Fence: string := "```"
  const ProcessingTitle: string := "Processing your request..."
  const WelcomeTitle: string := "Welcome to Sea Voice"
  const Acknowledgement: string := "Here is the visualization and summary you requested."
  const VisualizationFailure: string := "Sorry, I had trouble creating the visualization."
  const ProcessingErrorTitle: string := "Error processing data"
  const TransportErrorTitle: string := "An error occurred"
  const ErrorText: string := "Sorry, I encountered an error. Please try again."

  datatype AppState = AppState(messages: seq<Message>, isLoading: bool, visualization: VisualizationData,
                               summary: Option<string>, language: string, filters: Filters)

  /** This page's filter record has no depth range and no float id. */
  function InitialFilters(): Filters {
    Filters(DateRange("", ""), "all", "all", None, None)
  }

  function InitialState(): AppState {
    AppState([], false, WelcomeViz(WelcomeTitle), None, "en", InitialFilters())
  }

  /** The span `[start, end)` matched by /```json\s*([\s\S]*?)\s*```/ and its group. */
  datatype BlockMatch = BlockMatch(start: nat, end: nat, group: string)

  /** The first match of /```json\s*([\s\S]*?)\s*```/.  A fence is never white
      space, so the match runs from the leftmost marker to the first fence
      after it, and the group is the text between them, trimmed. */
  function MatchJsonBlock(s: string): (r: Option<BlockMatch>)
    ensures r.Some? ==> r.value.start + |JsonMarker| + |Fence| <= r.value.end <= |s|
  {
    match FirstEnclosed(s, JsonMarker, Fence)
    case None => None
    case Some((i, j)) => Some(SpanMatch(s, i, j))
  }

  /** The text between the marker and the closing fence of a match. */
  function Inner(s: string, m: BlockMatch): string
    requires m.start + |JsonMarker| <= m.end - |Fence| <= |s|
  {
    s[m.start + |JsonMarker|..m.end - |Fence|]
  }

  /** The match agrees with the regular expression's semantics on its span:
      it starts at the leftmost marker and ends with the first fence after it
      (the lazy group). */
  lemma MatchJsonBlockSpan(s: string)
    requires MatchJsonBlock(s).Some?
    ensures var m := MatchJsonBlock(s).value;
      && OccursAt(s, JsonMarker, m.start)
      && (forall j: nat :: j < m.start ==> !OccursAt(s, JsonMarker, j))
      && OccursAt(s, Fence, m.end - |Fence|)
      && (forall k: nat :: m.start + |JsonMarker| <= k < m.end - |Fence| ==> !OccursAt(s, Fence, k))
      && !Contains(Inner(s, m), Fence)
  {
    FirstEnclosedSound(s, JsonMarker, Fence);
    var span := FirstEnclosed(s, JsonMarker, Fence).value;
    assert Inner(s, MatchJsonBlock(s).value) == s[span.0 + |JsonMarker|..span.1];
  }

  /** The group is the inner text without the white space the greedy `\s*`
      on either side consumes. */
  lemma MatchJsonBlockGroup(s: string)
    requires MatchJsonBlock(s).Some?
    ensures var m := MatchJsonBlock(s).value;
      && Padded(Inner(s, m), m.group)
      && (m.group == [] || (!IsSpace(m.group[0]) && !IsSpace(m.group[|m.group| - 1])))
  {
    var span := FirstEnclosed(s, JsonMarker, Fence).value;
    assert MatchJsonBlock(s).value == SpanMatch(s, span.0, span.1);
    SpanMatchGroup(s, span.0, span.1);
  }

  /** The match built from a marker at `i` and a fence at `j`. */
  function SpanMatch(s: string, i: nat, j: nat): BlockMatch
    requires i + |JsonMarker| <= j <= |s|
  {
    BlockMatch(i, j + |Fence|, Trim(s[i + |JsonMarker|..j]))
  }

  lemma SpanMatchGroup(s: string, i: nat, j: nat)
    requires i + |JsonMarker| <= j <= |s|
    ensures var m := SpanMatch(s, i, j);
      && Padded(Inner(s, m), m.group)
      && (m.group == [] || (!IsSpace(m.group[0]) && !IsSpace(m.group[|m.group| - 1])))
  {
    var inner := s[i + |JsonMarker|..j];
    assert Inner(s, SpanMatch(s, i, j)) == inner;
    TrimPadded(inner);
  }

  /** There is no match exactly when no marker is followed by a fence. */
  lemma MatchJsonBlockComplete(s: string)
    ensures MatchJsonBlock(s).None? <==>
      forall i: nat, j: nat :: OccursAt(s, JsonMarker, i) && i + |JsonMarker| <= j ==> !OccursAt(s, Fence, j)
  {
    FirstEnclosedComplete(s, JsonMarker, Fence);
  }

  /** `handleSendMessage`: `stream` is what the service delivered;
      `userId` and `aiId` are the clock-derived ids. */
  function SendMessage(st: AppState, text: string, stream: Stream, userId: string, aiId: string,
                       parse: Parser): (r: AppState)
    ensures AllSpace(text) ==> r == st
    ensures !AllSpace(text) ==> !r.isLoading && r.language == st.language && r.filters == st.filters
  {
    if Trim(text) == "" then st
    else
      var started := st.(messages := OpenExchange(st.messages, userId, text, aiId), isLoading := true,
                        visualization := LoadingViz(ProcessingTitle), summary := None);
      var (msgs, full) := Accumulate(started.messages, aiId, stream.chunks);
      var streamed := started.(messages := msgs);
      if stream.fails then
        streamed.(messages := SetText(msgs, aiId, ErrorText),
                  visualization := WelcomeViz(TransportErrorTitle), isLoading := false)
      else
        var noBlock := streamed.(messages := SetText(msgs, aiId, full),
          visualization := if |st.messages| == 1 then WelcomeViz(WelcomeTitle) else streamed.visualization);
        var concluded :=
          match MatchJsonBlock(full)
          case None => noBlock
          case Some(m) =>
            if m.group == "" then noBlock
            else match parse(m.group)
              case Some(v) =>
                streamed.(visualization := v, summary := Some(Trim(full[..m.start] + full[m.end..])),
                          messages := SetText(msgs, aiId, Acknowledgement))
              case None =>
                streamed.(messages := SetText(msgs, aiId, VisualizationFailure),
                          visualization := WelcomeViz(ProcessingErrorTitle));
        concluded.(isLoading := false)
  }

  /** A block whose group parses becomes the visualization; the summary is
      the response with the whole match cut out, trimmed; the assistant
      message becomes the fixed acknowledgement. */
  lemma SendParsed(st: AppState, text: string, chunks: seq<string>, userId: string, aiId: string, parse: Parser)
    requires !AllSpace(text) && FreshId(st.messages, aiId) && userId != aiId
    requires var m := MatchJsonBlock(Concat(chunks)); m.Some? && m.value.group != "" && parse(m.value.group).Some?
    ensures var r := SendMessage(st, text, Stream(chunks, false), userId, aiId, parse);
      var full := Concat(chunks);
      var m := MatchJsonBlock(full).value;
      && r.messages == st.messages + [Message(userId, text, User), Message(aiId, Acknowledgement, Ai)]
      && r.visualization == parse(m.group).value
      && r.summary == Some(Trim(full[..m.start] + full[m.end..]))
  {
    var started := OpenExchange(st.messages, userId, text, aiId);
    AccumulateShowsConcat(started, aiId, chunks);
    PlaceholderOnly(st.messages, text, chunks, userId, aiId, Acknowledgement);
  }

  /** A block whose group does not parse yields the apology and the
      "Error processing data" welcome, and no summary. */
  lemma SendParseFailure(st: AppState, text: string, chunks: seq<string>, userId: string, aiId: string,
                         parse: Parser)
    requires !AllSpace(text) && FreshId(st.messages, aiId) && userId != aiId
    requires var m := MatchJsonBlock(Concat(chunks)); m.Some? && m.value.group != "" && parse(m.value.group).None?
    ensures var r := SendMessage(st, text, Stream(chunks, false), userId, aiId, parse);
      && r.messages == st.messages + [Message(userId, text, User), Message(aiId, VisualizationFailure, Ai)]
      && r.visualization == WelcomeViz(ProcessingErrorTitle)
      && r.summary == None
  {
    var started := OpenExchange(st.messages, userId, text, aiId);
    AccumulateShowsConcat(started, aiId, chunks);
    PlaceholderOnly(st.messages, text, chunks, userId, aiId, VisualizationFailure);
  }

  /** Without a (non-empty) block the assistant message is the whole
      response; the visualization returns to the welcome only when the
      transcript held exactly one message before the send. */
  lemma SendNoBlock(st: AppState, text: string, chunks: seq<string>, userId: string, aiId: string, parse: Parser)
    requires !AllSpace(text) && FreshId(st.messages, aiId) && userId != aiId
    requires var m := MatchJsonBlock(Concat(chunks)); m.None? || m.value.group == ""
    ensures var r := SendMessage(st, text, Stream(chunks, false), userId, aiId, parse);
      && r.messages == st.messages + [Message(userId, text, User), Message(aiId, Concat(chunks), Ai)]
      && r.summary == None
      && r.visualization == (if |st.messages| == 1 then WelcomeViz(WelcomeTitle) else LoadingViz(ProcessingTitle))
  {
    var started := OpenExchange(st.messages, userId, text, aiId);
    AccumulateShowsConcat(started, aiId, chunks);
    PlaceholderOnly(st.messages, text, chunks, userId, aiId, Concat(chunks));
  }

  /** A transport error replaces only the placeholder's text and shows the
      "An error occurred" welcome. */
  lemma TransportErrorOutcome(st: AppState, text: string, chunks: seq<string>, userId: string, aiId: string,
                              parse: Parser)
    requires !AllSpace(text) && FreshId(st.messages, aiId) && userId != aiId
    ensures var r := SendMessage(st, text, Stream(chunks, true), userId, aiId, parse);
      && r.messages == st.messages + [Message(userId, text, User), Message(aiId, ErrorText, Ai)]
      && r.visualization == WelcomeViz(TransportErrorTitle)
  {
    PlaceholderOnly(st.messages, text, chunks, userId, aiId, ErrorText);
  }

  /** Even transcript lengths, counted in pairs. */
  predicate Paired(n: nat) {
    n == 0 || (n >= 2 && Paired(n - 2))
  }

  /** Every send keeps the transcript paired: a user message and its reply. */
  lemma SendKeepsPaired(st: AppState, text: string, stream: Stream, userId: string, aiId: string, parse: Parser)
    requires Paired(|st.messages|)
    ensures Paired(|SendMessage(st, text, stream, userId, aiId, parse).messages|)
  {
    var r := SendMessage(st, text, stream, userId, aiId, parse);
    if !AllSpace(text) {
      assert |r.messages| == |st.messages| + 2;
    }
  }

  /** A paired transcript never holds exactly one message before a send, so
      a reply without a block leaves the loading visualization in place. */
  lemma NoBlockKeepsLoading(st: AppState, text: string, chunks: seq<string>, userId: string, aiId: string,
                            parse: Parser)
    requires Paired(|st.messages|)
    requires !AllSpace(text) && FreshId(st.messages, aiId) && userId != aiId
    requires var m := MatchJsonBlock(Concat(chunks)); m.None? || m.value.group == ""
    ensures SendMessage(st, text, Stream(chunks, false), userId, aiId, parse).visualization
         == LoadingViz(ProcessingTitle)
  {
    assert |st.messages| != 1;
    SendNoBlock(st, text, chunks, userId, aiId, parse);
  }

  /** `handleLoadChat`: returns the new state and the storage slot.  The
      snapshot is accepted only when messages, visualization, filters and
      language are all present and truthy; corrupt text removes the slot. */
  function LoadChat(st: AppState, stored: Option<string>, parseSnapshot: string -> Option<Snapshot>)
    : (r: (AppState, Option<string>))
    ensures !Truthy(stored) ==> r == (st, stored)
    ensures Truthy(stored) && parseSnapshot(stored.value).None? ==> r == (st, None)
    ensures Truthy(stored) && parseSnapshot(stored.value).Some? ==>
      var snap := parseSnapshot(stored.value).value;
      var complete := snap.messages.Some? && snap.visualization.Some? && snap.filters.Some?
                      && Truthy(snap.language);
      && r.1 == stored
      && (!complete ==> r.0 == st)
      && (complete ==> r.0 == st.(messages := snap.messages.value, visualization := snap.visualization.value,
                                   filters := snap.filters.value, language := snap.language.value,
                                   summary := if Truthy(snap.summary) then snap.summary else None))
  {
    if !Truthy(stored) then (st, stored)
    else match parseSnapshot(stored.value)
      case None => (st, None)
      case Some(snap) =>
        if snap.messages.Some? && snap.visualization.Some? && snap.filters.Some? && Truthy(snap.language) then
          (st.(messages := snap.messages.value, visualization := snap.visualization.value,
               summary := if Truthy(snap.summary) then snap.summary else None,
               filters := snap.filters.value, language := snap.language.value), stored)
        else (st, stored)
  }

  /** `handleClearChat`, when the user confirms. */
  function ClearChat(st: AppState, confirmed: bool): (r: AppState)
    ensures !confirmed ==> r == st
    ensures confirmed ==> r.messages == [] && r.summary == None && r.visualization == WelcomeViz(WelcomeTitle)
    ensures confirmed ==> r.filters == InitialFilters()
    ensures r.language == st.language
  {
    if confirmed then
      st.(messages := [], visualization := WelcomeViz(WelcomeTitle), summary := None, filters := InitialFilters())
    else st
  }
}

=== FILE: chat_only.dfy ===
/**
 * The summarizer chat: no payload is expected, so the assistant message is
 * the plain concatenation of the chunks.
 */
module ChatOnly {
  import opened Wrappers
  import opened Text
  import opened Types
  import opened Transcript
  import ChatPanel

  const ErrorText: string := "Sorry, I encountered an error. Please try again."
  const Persona: string := "summarizer"

  datatype ChatOnlyPage = ChatOnlyPage(messages: seq<Message>, isLoading: bool, language: string)

  function InitialPage(): ChatOnlyPage {
    ChatOnlyPage([], false, "en")
  }

  /** Every request uses the summarizer persona and the empty filters. */
  function RequestFor(page: ChatOnlyPage, text: string): (r: Request)
    ensures r.persona == "summarizer" && r.filters == EmptyFilters()
    ensures r.message == text && r.history == page.messages && r.language == page.language
  {
    Request(text, page.messages, page.language, EmptyFilters(), Persona)
  }

  /** `handleSendMessage`. */
  function SendMessage(page: ChatOnlyPage, text: string, stream: Stream, userId: string, aiId: string)
    : (r: ChatOnlyPage)
    ensures AllSpace(text) ==> r == page
    ensures !AllSpace(text) ==> !r.isLoading && r.language == page.language
  {
    if Trim(text) == "" then page
    else
      var (msgs, _) := Accumulate(OpenExchange(page.messages, userId, text, aiId), aiId, stream.chunks);
      var final := if stream.fails then SetText(msgs, aiId, ErrorText) else msgs;
      page.(messages := final, isLoading := false)
  }

  /** A non-blank send appends the user message and then an assistant message
      holding the concatenated chunks, or the fixed error text when the
      stream failed; the earlier messages are untouched. */
  lemma SendOutcome(page: ChatOnlyPage, text: string, stream: Stream, userId: string, aiId: string)
    requires !AllSpace(text) && FreshId(page.messages, aiId) && userId != aiId
    ensures SendMessage(page, text, stream, userId, aiId).messages
         == page.messages + [Message(userId, text, User),
                             Message(aiId, if stream.fails then ErrorText else Concat(stream.chunks), Ai)]
  {
    var t := if stream.fails then ErrorText else Concat(stream.chunks);
    PlaceholderOnly(page.messages, text, stream.chunks, userId, aiId, t);
    if !stream.fails {
      var started := OpenExchange(page.messages, userId, text, aiId);
      AccumulateShowsConcat(started, aiId, stream.chunks);
      if |stream.chunks| > 0 {
        SetTextTwice(started, aiId, t, t);
      } else {
        OnlyPlaceholderChanges(page.messages, userId, text, aiId, "");
      }
    }
  }

  /** After a non-blank send the transcript is never empty, so the chat
      panel shows messages rather than its welcome. */
  lemma WelcomeHiddenAfterSend(page: ChatOnlyPage, text: string, stream: Stream, userId: string, aiId: string,
                               hasWelcome: bool)
    requires !AllSpace(text)
    ensures var r := SendMessage(page, text, stream, userId, aiId);
      |r.messages| == |page.messages| + 2 && !ChatPanel.ShowsWelcome(r.messages, r.isLoading, hasWelcome)
  {
  }

  /** `handleLoadChat`: missing messages become [], a missing or empty
      language becomes "en"; unparsable text leaves the page as it was. */
  function LoadChat(page: ChatOnlyPage, stored: Option<string>, parseSnapshot: string -> Option<Snapshot>)
    : (r: ChatOnlyPage)
    ensures !Truthy(stored) || parseSnapshot(stored.value).None? ==> r == page
    ensures Truthy(stored) && parseSnapshot(stored.value).Some? ==>
      var snap := parseSnapshot(stored.value).value;
      && r.messages == snap.messages.GetOr([])
      && r.language == (if Truthy(snap.language) then snap.language.value else "en")
      && r.isLoading == page.isLoading
  {
    if !Truthy(stored) then page
    else match parseSnapshot(stored.value)
      case None => page
      case Some(snap) =>
        page.(messages := snap.messages.GetOr([]),
              language := if Truthy(snap.language) then snap.language.value else "en")
  }

  /** `handleClearChat`: empties the transcript when confirmed; the language stays. */
  function ClearChat(page: ChatOnlyPage, confirmed: bool): (r: ChatOnlyPage)
    ensures confirmed ==> r.messages == []
    ensures !confirmed ==> r == page
    ensures r.language == page.language
  {
    if confirmed then page.(messages := []) else page
  }
}

=== FILE: chat_panel.dfy ===
/**
 * The chat input: the submit guard, the input box after a submit, and when
 * the welcome component stands in for the transcript.
 */
module ChatPanel {
  import opened Wrappers
  import opened Text
  import opened Types

  /** The outcome of a submit: the text handed to the page, if any, and the
      input box's new content. */
  datatype Submission = Submission(sent: Option<string>, input: string)

  /** `handleSubmit`. */
  function HandleSubmit(input: string, isLoading: bool): (r: Submission)
    ensures r.sent.Some? <==> !AllSpace(input) && !isLoading
    ensures r.sent.Some? ==> r.sent.value == input && r.input == ""
    ensures r.sent.None? ==> r.input == input
  {
    if Trim(input) != "" && !isLoading then Submission(Some(input), "") else Submission(None, input)
  }

  /** The send button's `disabled` attribute. */
  predicate SendDisabled(input: string, isLoading: bool) {
    isLoading || Trim(input) == ""
  }

  /** The button is disabled exactly when a submit would send nothing. */
  lemma DisabledIffNothingSent(input: string, isLoading: bool)
    ensures SendDisabled(input, isLoading) <==> HandleSubmit(input, isLoading).sent.None?
  {
  }

  /** The welcome component replaces the transcript while it is empty,
      nothing is loading, and a welcome component was supplied. */
  predicate ShowsWelcome(messages: seq<Message>, isLoading: bool, hasWelcome: bool) {
    |messages| == 0 && !isLoading && hasWelcome
  }
}

=== FILE: explorer.dfy ===
/**
 * The data explorer's incremental response interpreter.  Text chunks are
 * appended to an accumulator; after each chunk the assistant message shows
 * the text before the first "```json" marker, the summary is frozen (trimmed)
 * the first time the marker appears, and the text after the marker, cut at
 * the first later "```", is parsed speculatively as a preview.  At the end of
 * the stream one of three outcomes is chosen: no marker, parse success, or
 * parse failure.
 */
module DataExplorer {
  import opened Wrappers
  import opened Text
  import opened Types
  import opened Transcript

  const JsonMarker: string := "```json"
  const Fence: string := "```"
  const ProcessingTitle: string := "Processing your request..."
  const ConversationalTitle: string := "Conversational Response"
  const RenderErrorTitle: string := "Error: Could not render visualization."
  const TransportErrorTitle: string := "Error"
  const WelcomeTitle: string := "Welcome to Sea Voice"
  const ErrorText: string := "Sorry, I encountered an error. Please try again."
  const Persona: string := "ocean_expert"

  datatype ExplorerPage = ExplorerPage(messages: seq<Message>, isLoading: bool, filters: Filters,
                                       visualization: VisualizationData, summary: Option<string>,
                                       language: string)

  function InitialVisualization(): VisualizationData {
    WelcomeViz(WelcomeTitle)
  }

  /** The explorer starts with every filter empty or "all". */
  function InitialFilters(): (f: Filters)
    ensures f.dateRange.start == "" && f.dateRange.end == ""
    ensures f.sensorType == "all" && f.region == "all"
    ensures f.depthRange == Some(DepthRange("", "")) && f.floatId == Some("")
  {
    EmptyFilters()
  }

  function InitialPage(): ExplorerPage {
    ExplorerPage([], false, InitialFilters(), InitialVisualization(), None, "en")
  }

  /** The page together with the send handler's local variables. */
  datatype Exchange = Exchange(page: ExplorerPage, aiMessageId: string, fullTextResponse: string,
                               jsonBlock: string, inJsonBlock: bool)

  /** The payload text of an accumulated response: after the first marker,
      cut at the first later fence when there is one. */
  function PayloadText(full: string): string
    requires Contains(full, JsonMarker)
  {
    var i := IndexOf(full, JsonMarker).value;
    Before(full[i + |JsonMarker|..], Fence)
  }

  /** The speculative parse after a chunk: once the marker and a later
      fence are both present, a successful parse of the enclosed text
      replaces the visualization; a failed one only logs. */
  function Preview(full: string, current: VisualizationData, parse: Parser): VisualizationData {
    if FenceSeen(full) then parse(PayloadText(full)).GetOr(current) else current
  }

  /** The marker has arrived and so has a fence after it: the payload text
      is complete. */
  predicate FenceSeen(full: string) {
    Contains(full, JsonMarker) && Contains(full[IndexOf(full, JsonMarker).value + |JsonMarker|..], Fence)
  }

  /** The loop body for one chunk: append, show the text before the marker,
      freeze the summary the first time the marker is seen, recompute the
      payload text and try the speculative parse. */
  function Step(x: Exchange, chunk: string, parse: Parser): Exchange {
    var full := x.fullTextResponse + chunk;
    var seen := Contains(full, JsonMarker);
    var page := x.page.(
      messages := SetText(x.page.messages, x.aiMessageId, Before(full, JsonMarker)),
      summary := if seen && !x.inJsonBlock then Some(Trim(Before(full, JsonMarker))) else x.page.summary,
      visualization := Preview(full, x.page.visualization, parse));
    Exchange(page, x.aiMessageId, full,
             if seen then PayloadText(full) else x.jsonBlock,
             x.inJsonBlock || seen)
  }

  /** The loop over all chunks, in arrival order. */
  function Feed(x: Exchange, chunks: seq<string>, parse: Parser): Exchange {
    if |chunks| == 0 then x
    else Step(Feed(x, chunks[..|chunks| - 1], parse), chunks[|chunks| - 1], parse)
  }

  /** The code after the loop, including its trailing-fence strip. */
  function Finish(x: Exchange, parse: Parser): ExplorerPage {
    var p :=
      if x.inJsonBlock then
        var block :=
          if EndsWith(x.jsonBlock, Fence) then x.jsonBlock[..|x.jsonBlock| - |Fence|] else x.jsonBlock;
        match parse(block)
        case Some(v) => x.page.(visualization := v)
        case None => x.page.(visualization := WelcomeViz(RenderErrorTitle))
      else x.page.(summary := None, visualization := WelcomeViz(ConversationalTitle));
    p.(isLoading := false)
  }

  /** The page right after a non-blank send, before any chunk. */
  function Open(page: ExplorerPage, text: string, userId: string, aiId: string): ExplorerPage {
    page.(messages := OpenExchange(page.messages, userId, text, aiId), isLoading := true,
          summary := None, visualization := LoadingViz(ProcessingTitle))
  }

  /** What the handler asks the streaming service for. */
  function RequestFor(page: ExplorerPage, text: string): (r: Request)
    ensures r.message == text && r.history == page.messages && r.persona == "ocean_expert"
    ensures r.filters == page.filters && r.language == page.language
  {
    Request(text, page.messages, page.language, page.filters, Persona)
  }

  /** `handleSendMessage`: `stream` is what the service delivers for
      `RequestFor(page, text)`; `userId` and `aiId` are the clock-derived ids. */
  function SendMessage(page: ExplorerPage, text: string, stream: Stream,
                       userId: string, aiId: string, parse: Parser): (r: ExplorerPage)
    ensures AllSpace(text) ==> r == page
    ensures !AllSpace(text) ==> !r.isLoading
  {
    if Trim(text) == "" then page
    else
      var x := Feed(Exchange(Open(page, text, userId, aiId), aiId, "", "", false), stream.chunks, parse);
      if stream.fails then
        x.page.(messages := SetText(x.page.messages, aiId, ErrorText),
                visualization := WelcomeViz(TransportErrorTitle), isLoading := false)
      else Finish(x, parse)
  }

  /** What the loop has established after the chunks `chunks`, started from `base`. */
  ghost predicate Tracks(x: Exchange, base: ExplorerPage, aiId: string, chunks: seq<string>) {
    && FrameTracks(x, base, aiId, chunks)
    && MessagesTrack(x, base, aiId, chunks)
    && MarkerTracks(x, base)
  }

  ghost predicate FrameTracks(x: Exchange, base: ExplorerPage, aiId: string, chunks: seq<string>) {
    && x.aiMessageId == aiId
    && x.fullTextResponse == Concat(chunks)
    && x.page.filters == base.filters && x.page.language == base.language
    && x.page.isLoading == base.isLoading
  }

  ghost predicate MessagesTrack(x: Exchange, base: ExplorerPage, aiId: string, chunks: seq<string>) {
    && (|chunks| == 0 ==> x.page.messages == base.messages)
    && (|chunks| > 0 ==> x.page.messages == SetText(base.messages, aiId, Before(x.fullTextResponse, JsonMarker)))
  }

  ghost predicate MarkerTracks(x: Exchange, base: ExplorerPage) {
    var full := x.fullTextResponse;
    && (x.inJsonBlock <==> Contains(full, JsonMarker))
    && (x.inJsonBlock ==> x.page.summary == Some(Trim(Before(full, JsonMarker)))
                          && x.jsonBlock == PayloadText(full))
    && (!x.inJsonBlock ==> x.page.summary == base.summary && x.jsonBlock == ""
                           && x.page.visualization == base.visualization)
  }

  lemma StepMarker(x: Exchange, base: ExplorerPage, c: string, parse: Parser)
    requires MarkerTracks(x, base)
    ensures MarkerTracks(Step(x, c, parse), base)
  {
    var full := x.fullTextResponse + c;
    if x.inJsonBlock {
      IndexOfExtend(x.fullTextResponse, c, JsonMarker);
      BeforeExtend(x.fullTextResponse, c, JsonMarker);
    } else if !Contains(full, JsonMarker) {
      assert Step(x, c, parse).page.visualization == x.page.visualization;
    }
  }

  lemma StepMessages(x: Exchange, base: ExplorerPage, aiId: string, init: seq<string>, c: string, parse: Parser)
    requires FrameTracks(x, base, aiId, init) && MessagesTrack(x, base, aiId, init)
    ensures MessagesTrack(Step(x, c, parse), base, aiId, init + [c])
  {
    if |init| > 0 {
      SetTextTwice(base.messages, aiId, Before(x.fullTextResponse, JsonMarker),
                   Before(x.fullTextResponse + c, JsonMarker));
    }
  }

  lemma StepFrame(x: Exchange, base: ExplorerPage, aiId: string, init: seq<string>, c: string, parse: Parser)
    requires FrameTracks(x, base, aiId, init)
    ensures FrameTracks(Step(x, c, parse), base, aiId, init + [c])
  {
    assert (init + [c])[..|init|] == init;
  }

  /** The loop keeps the id, the accumulator and the untouched fields. */
  lemma {:induction false} FeedFrame(base: ExplorerPage, aiId: string, chunks: seq<string>, parse: Parser)
    ensures FrameTracks(Feed(Exchange(base, aiId, "", "", false), chunks, parse), base, aiId, chunks)
  {
    if |chunks| > 0 {
      var init := chunks[..|chunks| - 1];
      FeedFrame(base, aiId, init, parse);
      assert chunks == init + [chunks[|chunks| - 1]];
      StepFrame(Feed(Exchange(base, aiId, "", "", false), init, parse), base, aiId, init, chunks[|chunks| - 1], parse);
    }
  }

  /** The marker flag, the summary and the payload text follow the accumulator. */
  lemma {:induction false} FeedMarker(base: ExplorerPage, aiId: string, chunks: seq<string>, parse: Parser)
    ensures MarkerTracks(Feed(Exchange(base, aiId, "", "", false), chunks, parse), base)
  {
    if |chunks| > 0 {
      var init := chunks[..|chunks| - 1];
      FeedMarker(base, aiId, init, parse);
      StepMarker(Feed(Exchange(base, aiId, "", "", false), init, parse), base, chunks[|chunks| - 1], parse);
    } else {
      assert !Contains("", JsonMarker);
    }
  }

  /** The placeholder shows the text before the marker. */
  lemma {:induction false} FeedMessages(base: ExplorerPage, aiId: string, chunks: seq<string>, parse: Parser)
    ensures MessagesTrack(Feed(Exchange(base, aiId, "", "", false), chunks, parse), base, aiId, chunks)
  {
    if |chunks| > 0 {
      var init := chunks[..|chunks| - 1];
      var c := chunks[|chunks| - 1];
      FeedFrame(base, aiId, init, parse);
      FeedMessages(base, aiId, init, parse);
      assert chunks == init + [c];
      StepMessages(Feed(Exchange(base, aiId, "", "", false), init, parse), base, aiId, init, c, parse);
    }
  }

  /** The loop invariant: the message shows the text before the first
      marker (all of it while there is none), and the marker flag, the
      summary and the payload text are functions of the accumulated text. */
  lemma FeedTracks(base: ExplorerPage, aiId: string, chunks: seq<string>, parse: Parser)
    ensures Tracks(Feed(Exchange(base, aiId, "", "", false), chunks, parse), base, aiId, chunks)
  {
    FeedFrame(base, aiId, chunks, parse);
    FeedMessages(base, aiId, chunks, parse);
    FeedMarker(base, aiId, chunks, parse);
  }

  /** Once the marker has appeared in the first `k` chunks, its first index,
      the displayed assistant text and the summary never change again. */
  lemma SplitPointFrozen(base: ExplorerPage, aiId: string, chunks: seq<string>, parse: Parser, k: nat, k': nat)
    requires k <= k' <= |chunks| && Contains(Concat(chunks[..k]), JsonMarker)
    ensures var x := Feed(Exchange(base, aiId, "", "", false), chunks[..k'], parse);
      var early := Concat(chunks[..k]);
      && IndexOf(x.fullTextResponse, JsonMarker) == IndexOf(early, JsonMarker)
      && x.page.messages == SetText(base.messages, aiId, Before(early, JsonMarker))
      && x.page.summary == Some(Trim(Before(early, JsonMarker)))
  {
    var early := Concat(chunks[..k]);
    assert chunks[..k'] == chunks[..k] + chunks[k..k'];
    ConcatAppend(chunks[..k], chunks[k..k']);
    IndexOfExtend(early, Concat(chunks[k..k']), JsonMarker);
    BeforeExtend(early, Concat(chunks[k..k']), JsonMarker);
    FeedTracks(base, aiId, chunks[..k'], parse);
    assert chunks[..0] == [] && !Contains("", JsonMarker);
    assert k > 0;
  }

  /** Once the fence after the marker has arrived, more text changes
      neither the payload text nor the fact that it is complete. */
  lemma PayloadFrozen(a: string, b: string)
    requires FenceSeen(a)
    ensures FenceSeen(a + b) && PayloadText(a + b) == PayloadText(a)
  {
    IndexOfExtend(a, b, JsonMarker);
    var i := IndexOf(a, JsonMarker).value;
    var rest := a[i + |JsonMarker|..];
    assert (a + b)[i + |JsonMarker|..] == rest + b;
    IndexOfExtend(rest, b, Fence);
    BeforeExtend(rest, b, Fence);
  }

  /** The accumulated text after the first `k` chunks extends to the text
      after any later count. */
  lemma ConcatPrefix(chunks: seq<string>, k: nat, k': nat)
    requires k <= k' <= |chunks|
    ensures Concat(chunks[..k']) == Concat(chunks[..k]) + Concat(chunks[k..k'])
  {
    assert chunks[..k'] == chunks[..k] + chunks[k..k'];
    ConcatAppend(chunks[..k], chunks[k..k']);
  }

  /** A chunk after which the payload text is complete leaves a parsed
      payload on screen and otherwise keeps the visualization. */
  lemma StepFrozen(x: Exchange, c: string, parse: Parser, payload: string)
    requires FenceSeen(x.fullTextResponse + c) && PayloadText(x.fullTextResponse + c) == payload
    ensures Step(x, c, parse).page.visualization == parse(payload).GetOr(x.page.visualization)
  {
  }

  /** The accumulated text after `k'` chunks still has the payload text it had after `k`. */
  lemma FedPayloadFrozen(base: ExplorerPage, aiId: string, chunks: seq<string>, parse: Parser, k: nat, k': nat)
    requires k <= k' <= |chunks| && FenceSeen(Concat(chunks[..k]))
    ensures var full := Feed(Exchange(base, aiId, "", "", false), chunks[..k'], parse).fullTextResponse;
      FenceSeen(full) && PayloadText(full) == PayloadText(Concat(chunks[..k]))
  {
    FeedFrame(base, aiId, chunks[..k'], parse);
    ConcatPrefix(chunks, k, k');
    PayloadFrozen(Concat(chunks[..k]), Concat(chunks[k..k']));
  }

  /** After the first `k'` chunks the payload text is the one complete
      after the first `k`. */
  lemma PayloadKept(base: ExplorerPage, aiId: string, chunks: seq<string>, parse: Parser, k: nat, k': nat)
    requires k <= k' <= |chunks| && FenceSeen(Concat(chunks[..k]))
    ensures Feed(Exchange(base, aiId, "", "", false), chunks[..k'], parse).jsonBlock
            == PayloadText(Concat(chunks[..k]))
  {
    FedPayloadFrozen(base, aiId, chunks, parse, k, k');
    FeedMarker(base, aiId, chunks[..k'], parse);
  }

  /** The last of the first `k'` chunks, once the fence is within the
      first `k`: the preview parses the early payload text. */
  lemma PreviewLast(base: ExplorerPage, aiId: string, chunks: seq<string>, parse: Parser, k: nat, k': nat)
    requires k <= k' <= |chunks| && FenceSeen(Concat(chunks[..k]))
    ensures k' > 0
    ensures var prev := Feed(Exchange(base, aiId, "", "", false), chunks[..k' - 1], parse);
      Feed(Exchange(base, aiId, "", "", false), chunks[..k'], parse).page.visualization
      == parse(PayloadText(Concat(chunks[..k]))).GetOr(prev.page.visualization)
  {
    assert k' > 0 by {
      assert chunks[..0] == [];
      assert !Contains("", JsonMarker);
    }
    var start := Exchange(base, aiId, "", "", false);
    var init := chunks[..k' - 1];
    var c := chunks[k' - 1];
    var prev := Feed(start, init, parse);
    FeedLast(start, chunks, k', parse);
    FeedFrame(base, aiId, chunks[..k'], parse);
    FeedFrame(base, aiId, init, parse);
    assert prev.fullTextResponse + c == Concat(chunks[..k']) by {
      assert chunks[..k'][..k' - 1] == init;
    }
    FedPayloadFrozen(base, aiId, chunks, parse, k, k');
    StepFrozen(prev, c, parse, PayloadText(Concat(chunks[..k])));
  }

  /** Feeding the first `k'` chunks is feeding the first `k' - 1` and then one more. */
  lemma FeedLast(start: Exchange, chunks: seq<string>, k': nat, parse: Parser)
    requires 0 < k' <= |chunks|
    ensures Feed(start, chunks[..k'], parse) == Step(Feed(start, chunks[..k' - 1], parse), chunks[k' - 1], parse)
  {
    assert chunks[..k'][..k' - 1] == chunks[..k' - 1];
  }

  /** Once the fence after the marker is within the first `k` chunks, the
      payload text and the previewed visualization never change again, and
      a payload that parses is what is shown. */
  lemma {:induction false} PreviewFrozen(base: ExplorerPage, aiId: string, chunks: seq<string>, parse: Parser,
                                         k: nat, k': nat)
    requires k <= k' <= |chunks| && FenceSeen(Concat(chunks[..k]))
    ensures var payload := PayloadText(Concat(chunks[..k]));
      var x := Feed(Exchange(base, aiId, "", "", false), chunks[..k], parse);
      var y := Feed(Exchange(base, aiId, "", "", false), chunks[..k'], parse);
      && y.jsonBlock == payload
      && y.page.visualization == x.page.visualization
      && (parse(payload).Some? ==> y.page.visualization == parse(payload).value)
    decreases k'
  {
    PayloadKept(base, aiId, chunks, parse, k, k');
    PreviewLast(base, aiId, chunks, parse, k, k');
    if k' > k {
      PreviewFrozen(base, aiId, chunks, parse, k, k' - 1);
    }
  }

  /** The payload text never ends with a fence: it is cut before its first one. */
  lemma PayloadHasNoTrailingFence(full: string)
    requires Contains(full, JsonMarker)
    ensures !EndsWith(PayloadText(full), Fence)
  {
    var i := IndexOf(full, JsonMarker).value;
    BeforeExcludes(full[i + |JsonMarker|..], Fence);
    if EndsWith(PayloadText(full), Fence) {
      EndsWithContains(PayloadText(full), Fence);
    }
  }

  /** The strip of a trailing fence after the loop never applies, whatever
      the chunks were. */
  lemma TrailingFenceStripIsDead(base: ExplorerPage, aiId: string, chunks: seq<string>, parse: Parser)
    ensures !EndsWith(Feed(Exchange(base, aiId, "", "", false), chunks, parse).jsonBlock, Fence)
  {
    var x := Feed(Exchange(base, aiId, "", "", false), chunks, parse);
    FeedTracks(base, aiId, chunks, parse);
    if x.inJsonBlock {
      PayloadHasNoTrailingFence(x.fullTextResponse);
    }
  }

  /** The terminal outcome defined directly on the whole response text:
      the placeholder shows the text before the marker; no marker gives a
      null summary and the conversational welcome; otherwise the summary is
      the trimmed text before the marker and the visualization is the parsed
      payload or the render-error welcome. */
  function BatchOutcome(page: ExplorerPage, text: string, full: string,
                        userId: string, aiId: string, parse: Parser): ExplorerPage
  {
    var messages := page.messages + [Message(userId, text, User), Message(aiId, Before(full, JsonMarker), Ai)];
    if Contains(full, JsonMarker) then
      page.(messages := messages, isLoading := false,
            summary := Some(Trim(Before(full, JsonMarker))),
            visualization := parse(PayloadText(full)).GetOr(WelcomeViz(RenderErrorTitle)))
    else
      page.(messages := messages, isLoading := false,
            summary := None, visualization := WelcomeViz(ConversationalTitle))
  }

  /** The code after the loop, applied to a loop state that tracks `full`,
      gives the whole-response outcome. */
  lemma FinishAgrees(page: ExplorerPage, text: string, full: string, userId: string, aiId: string,
                     parse: Parser, x: Exchange)
    requires x.page.messages == page.messages + [Message(userId, text, User), Message(aiId, Before(full, JsonMarker), Ai)]
    requires x.page.filters == page.filters && x.page.language == page.language
    requires x.fullTextResponse == full
    requires x.inJsonBlock <==> Contains(full, JsonMarker)
    requires x.inJsonBlock ==> x.page.summary == Some(Trim(Before(full, JsonMarker))) && x.jsonBlock == PayloadText(full)
    ensures Finish(x, parse) == BatchOutcome(page, text, full, userId, aiId, parse)
  {
    if x.inJsonBlock {
      PayloadHasNoTrailingFence(full);
    }
  }

  /** The incremental interpreter over a completed stream agrees with the
      whole-response definition. */
  lemma SendOutcome(page: ExplorerPage, text: string, chunks: seq<string>,
                    userId: string, aiId: string, parse: Parser)
    requires !AllSpace(text) && FreshId(page.messages, aiId) && userId != aiId
    ensures SendMessage(page, text, Stream(chunks, false), userId, aiId, parse)
         == BatchOutcome(page, text, Concat(chunks), userId, aiId, parse)
  {
    var base := Open(page, text, userId, aiId);
    var x := Feed(Exchange(base, aiId, "", "", false), chunks, parse);
    FeedTracks(base, aiId, chunks, parse);
    var full := Concat(chunks);
    assert x.page.messages == page.messages + [Message(userId, text, User), Message(aiId, Before(full, JsonMarker), Ai)] by {
      OnlyPlaceholderChanges(page.messages, userId, text, aiId, Before(full, JsonMarker));
      if |chunks| == 0 {
        OnlyPlaceholderChanges(page.messages, userId, text, aiId, "");
      }
    }
    FinishAgrees(page, text, full, userId, aiId, parse, x);
  }

  /** Any split of the same total text into chunks gives the same final page. */
  lemma ChunkingIrrelevant(page: ExplorerPage, text: string, c1: seq<string>, c2: seq<string>,
                           userId: string, aiId: string, parse: Parser)
    requires FreshId(page.messages, aiId) && userId != aiId
    requires Concat(c1) == Concat(c2)
    ensures SendMessage(page, text, Stream(c1, false), userId, aiId, parse)
         == SendMessage(page, text, Stream(c2, false), userId, aiId, parse)
  {
    if !AllSpace(text) {
      SendOutcome(page, text, c1, userId, aiId, parse);
      SendOutcome(page, text, c2, userId, aiId, parse);
    }
  }

  /** Overwriting the placeholder after the loop discards whatever prefix
      the loop showed. */
  lemma FeedThenSetText(base: ExplorerPage, aiId: string, chunks: seq<string>, parse: Parser, t: string)
    ensures SetText(Feed(Exchange(base, aiId, "", "", false), chunks, parse).page.messages, aiId, t)
         == SetText(base.messages, aiId, t)
  {
    FeedTracks(base, aiId, chunks, parse);
    if |chunks| > 0 {
      SetTextTwice(base.messages, aiId, Before(Concat(chunks), JsonMarker), t);
    }
  }

  /** When the stream stops, error or not, replacing the placeholder's text
      leaves the rest of the transcript as it was. */
  lemma StreamedMessages(page: ExplorerPage, text: string, chunks: seq<string>, userId: string, aiId: string,
                         parse: Parser, t: string)
    requires FreshId(page.messages, aiId) && userId != aiId
    ensures var x := Feed(Exchange(Open(page, text, userId, aiId), aiId, "", "", false), chunks, parse);
      SetText(x.page.messages, aiId, t) == page.messages + [Message(userId, text, User), Message(aiId, t, Ai)]
  {
    FeedThenSetText(Open(page, text, userId, aiId), aiId, chunks, parse, t);
    OnlyPlaceholderChanges(page.messages, userId, text, aiId, t);
  }

  /** When the stream stops the summary is the frozen prefix, if the marker
      arrived. */
  lemma StreamedSummary(page: ExplorerPage, text: string, chunks: seq<string>, userId: string, aiId: string,
                        parse: Parser)
    ensures var x := Feed(Exchange(Open(page, text, userId, aiId), aiId, "", "", false), chunks, parse);
      var full := Concat(chunks);
      x.page.summary == (if Contains(full, JsonMarker) then Some(Trim(Before(full, JsonMarker))) else None)
  {
    var base := Open(page, text, userId, aiId);
    FeedTracks(base, aiId, chunks, parse);
    var x := Feed(Exchange(base, aiId, "", "", false), chunks, parse);
    assert FrameTracks(x, base, aiId, chunks) && MarkerTracks(x, base);
  }

  /** A transport error replaces only the placeholder's text with the fixed
      error string and shows the "Error" welcome; the summary keeps whatever
      the chunks before the error had frozen. */
  lemma TransportErrorOutcome(page: ExplorerPage, text: string, chunks: seq<string>,
                              userId: string, aiId: string, parse: Parser)
    requires !AllSpace(text) && FreshId(page.messages, aiId) && userId != aiId
    ensures var r := SendMessage(page, text, Stream(chunks, true), userId, aiId, parse);
      var full := Concat(chunks);
      && r.messages == page.messages + [Message(userId, text, User), Message(aiId, ErrorText, Ai)]
      && r.visualization == WelcomeViz(TransportErrorTitle)
      && r.summary == (if Contains(full, JsonMarker) then Some(Trim(Before(full, JsonMarker))) else None)
  {
    StreamedMessages(page, text, chunks, userId, aiId, parse, ErrorText);
    StreamedSummary(page, text, chunks, userId, aiId, parse);
  }

  /** `handleClearSession`, when the user confirms: transcript, filters,
      visualization and summary reset; the language stays. */
  function ClearSession(page: ExplorerPage, confirmed: bool): (r: ExplorerPage)
    ensures !confirmed ==> r == page
    ensures confirmed ==> (r.messages == [] && r.filters == InitialFilters()
                           && r.visualization == InitialVisualization() && r.summary == None)
    ensures r.language == page.language && r.isLoading == page.isLoading
  {
    if confirmed then
      page.(messages := [], filters := InitialFilters(), visualization := InitialVisualization(), summary := None)
    else page
  }

  /** `handleClearVisualization`. */
  function ClearVisualization(page: ExplorerPage): (r: ExplorerPage)
    ensures r.visualization == InitialVisualization() && r.summary == None
    ensures r.messages == page.messages && r.filters == page.filters && r.language == page.language
  {
    page.(visualization := InitialVisualization(), summary := None)
  }

  /** `handleLoadSession`: a stored snapshot replaces every field, each
      missing or falsy one by its initial value; no stored text, or text that
      does not parse, leaves the page unchanged. */
  function LoadSession(page: ExplorerPage, stored: Option<string>,
                       parseSnapshot: string -> Option<Snapshot>): (r: ExplorerPage)
    ensures !Truthy(stored) ==> r == page
    ensures Truthy(stored) && parseSnapshot(stored.value).None? ==> r == page
    ensures Truthy(stored) && parseSnapshot(stored.value).Some? ==>
      var snap := parseSnapshot(stored.value).value;
      && r.messages == snap.messages.GetOr([])
      && r.filters == snap.filters.GetOr(InitialFilters())
      && r.visualization == snap.visualization.GetOr(InitialVisualization())
      && (Truthy(snap.summary) ==> r.summary == snap.summary)
      && (!Truthy(snap.summary) ==> r.summary == None)
      && r.isLoading == page.isLoading
      && (Truthy(snap.language) ==> r.language == snap.language.value)
      && (!Truthy(snap.language) ==> r.language == "en")
  {
    if !Truthy(stored) then page
    else match parseSnapshot(stored.value)
      case None => page
      case Some(snap) =>
        page.(messages := snap.messages.GetOr([]),
              filters := snap.filters.GetOr(InitialFilters()),
              visualization := snap.visualization.GetOr(InitialVisualization()),
              summary := if Truthy(snap.summary) then snap.summary else None,
              language := if Truthy(snap.language) then snap.language.value else "en")
  }
}

=== FILE: export.dfy ===
/**
 * The explorer's export: flattening a visualization into a uniform row
 * list, naming the file after the title, and serialising rows as CSV.
 * `JSON.stringify` of a single value and of a whole row list are
 * parameters.
 */
module Export {
  import opened Wrappers
  import opened Text
  import opened Types

  datatype ExportFormat = Csv | Json

  /** What the handler does: alert that there is nothing to export, or
      download a file with this name built from these rows. */
  datatype ExportResult = NothingToExport | Download(filename: string, rows: seq<Row>, content: string)

  function ProfileRow(p: ProfilePoint): Row { [("depth", Num(p.depth)), ("value", Num(p.value))] }
  function TimeSeriesRow(p: TimeSeriesPoint): Row { [("date", Str(p.date)), ("value", Num(p.value))] }
  function MapRow(p: MapPoint): Row { [("lat", Num(p.lat)), ("lon", Num(p.lon)), ("id", Str(p.id))] }
  function DensityRow(p: DensityPoint): Row {
    [("lat", Num(p.lat)), ("lon", Num(p.lon)), ("density", Num(p.density))]
  }

  /** `{...d, source: title}` for every point of one compared map. */
  function SourceRows(m: MapComparisonData): seq<Row> {
    seq(|m.points|, i requires 0 <= i < |m.points| => MapRow(m.points[i]) + [("source", Str(m.title))])
  }

  /** The row exported for one point of a trajectory. */
  function TrajectoryRow(id: string, p: PathPoint): Row {
    [("float_id", Str(id)), ("lat", Num(p.lat)), ("lon", Num(p.lon)), ("timestamp", Str(p.timestamp))]
  }

  function PathRows(id: string, path: seq<PathPoint>): seq<Row> {
    seq(|path|, i requires 0 <= i < |path| => TrajectoryRow(id, path[i]))
  }

  /** `flatMap` over the trajectories. */
  function TrajectoryRows(ts: seq<Trajectory>): seq<Row> {
    if |ts| == 0 then [] else PathRows(ts[0].id, ts[0].path) + TrajectoryRows(ts[1..])
  }

  /** The number of path points in the first `t` trajectories. */
  function PointsBefore(ts: seq<Trajectory>, t: nat): nat
    requires t <= |ts|
  {
    if t == 0 then 0 else |ts[0].path| + PointsBefore(ts[1..], t - 1)
  }

  /** The list the handler flattens a payload into. */
  function Flatten(v: VisualizationData): seq<Row> {
    match v
    case MapComparisonViz(_, a, b) => SourceRows(a) + SourceRows(b)
    case TrajectoryMapViz(_, ts) => TrajectoryRows(ts)
    case ProfileChartViz(_, ps, _, _) => seq(|ps|, i requires 0 <= i < |ps| => ProfileRow(ps[i]))
    case TimeSeriesChartViz(_, ps, _, _) => seq(|ps|, i requires 0 <= i < |ps| => TimeSeriesRow(ps[i]))
    case MapViz(_, ps) => seq(|ps|, i requires 0 <= i < |ps| => MapRow(ps[i]))
    case DensityMapViz(_, ps) => seq(|ps|, i requires 0 <= i < |ps| => DensityRow(ps[i]))
    case TableViewViz(_, rows) => rows
    case UnknownViz(_, _, data) => data.GetOr([])
    case WelcomeViz(_) => []
    case LoadingViz(_) => []
  }

  /** The title with every white-space character and every '/' made '_'. */
  function Sanitize(title: string): (r: string)
    ensures |r| == |title|
    ensures forall i :: 0 <= i < |r| ==> !IsSpace(r[i]) && r[i] != '/'
    ensures forall i :: 0 <= i < |r| && !IsSpace(title[i]) && title[i] != '/' ==> r[i] == title[i]
  {
    seq(|title|, i requires 0 <= i < |title| => if IsSpace(title[i]) || title[i] == '/' then '_' else title[i])
  }

  function Extension(format: ExportFormat): string {
    match format
    case Csv => ".csv"
    case Json => ".json"
  }

  /** `Object.keys(row)`. */
  function Keys(row: Row): seq<string> {
    seq(|row|, i requires 0 <= i < |row| => row[i].0)
  }

  /** `row[key]`: the first field with that key, if any. */
  function Lookup(row: Row, key: string): Option<Value> {
    if |row| == 0 then None
    else if row[0].0 == key then Some(row[0].1)
    else Lookup(row[1..], key)
  }

  /** One CSV cell: a missing field renders as nothing (`undefined` joins as
      the empty string), null as `""` (the replacer maps it to the empty
      string, which is then quoted), anything else as `JSON.stringify` gives it. */
  function Cell(row: Row, key: string, stringify: Value -> string): string {
    match Lookup(row, key)
    case None => ""
    case Some(Null) => "\"\""
    case Some(v) => stringify(v)
  }

  function RowLine(row: Row, headers: seq<string>, stringify: Value -> string): string {
    Join(seq(|headers|, i requires 0 <= i < |headers| => Cell(row, headers[i], stringify)), ",")
  }

  /** The header line (first row's keys only) followed by one line per row. */
  function CsvLines(data: seq<Row>, stringify: Value -> string): seq<string>
    requires |data| > 0
  {
    var headers := Keys(data[0]);
    [Join(headers, ",")] + seq(|data|, i requires 0 <= i < |data| => RowLine(data[i], headers, stringify))
  }

  /** `convertToCSV`. */
  function ConvertToCsv(data: seq<Row>, stringify: Value -> string): (r: string)
    ensures |data| == 0 ==> r == ""
  {
    if |data| == 0 then "" else Join(CsvLines(data, stringify), "\r\n")
  }

  /** `handleExportData`. */
  function ExportData(v: VisualizationData, format: ExportFormat, stringify: Value -> string,
                      stringifyRows: seq<Row> -> string): (r: ExportResult)
    ensures !v.IsDataVisualization() ==> r == NothingToExport
    ensures r.Download? ==> |r.rows| > 0 && r.rows == Flatten(v)
    ensures r.Download? ==> r.filename == Sanitize(v.title) + Extension(format)
    ensures v.IsDataVisualization() && |Flatten(v)| > 0 ==> r.Download?
    ensures r.Download? && format == Csv ==> r.content == ConvertToCsv(r.rows, stringify)
    ensures r.Download? && format == Json ==> r.content == stringifyRows(r.rows)
  {
    if !v.HasData() || v.WelcomeViz? || v.LoadingViz? then NothingToExport
    else
      var rows := Flatten(v);
      if |rows| == 0 then NothingToExport
      else
        var content := match format
          case Csv => ConvertToCsv(rows, stringify)
          case Json => stringifyRows(rows);
        Download(Sanitize(v.title) + Extension(format), rows, content)
  }

  /** A map comparison exports mapA's points tagged with mapA's title, then
      mapB's points tagged with mapB's title. */
  lemma MapComparisonExport(title: string, a: MapComparisonData, b: MapComparisonData)
    ensures var rows := Flatten(MapComparisonViz(title, a, b));
      && |rows| == |a.points| + |b.points|
      && (forall i :: 0 <= i < |a.points| ==>
            rows[i] == MapRow(a.points[i]) + [("source", Str(a.title))])
      && (forall i :: 0 <= i < |b.points| ==>
            rows[|a.points| + i] == MapRow(b.points[i]) + [("source", Str(b.title))])
  {
  }

  /** The flattened trajectories have one row per path point. */
  lemma {:induction false} TrajectoryRowsLength(ts: seq<Trajectory>)
    ensures |TrajectoryRows(ts)| == PointsBefore(ts, |ts|)
  {
    if |ts| > 0 {
      TrajectoryRowsLength(ts[1..]);
    }
  }

  /** Point `p` of trajectory `t` is exported, in order, after the points of
      the earlier trajectories, with `float_id` set to the trajectory's id. */
  lemma {:induction false} TrajectoryRowsAt(ts: seq<Trajectory>, t: nat, p: nat)
    requires t < |ts| && p < |ts[t].path|
    ensures PointsBefore(ts, t) + p < |TrajectoryRows(ts)|
    ensures TrajectoryRows(ts)[PointsBefore(ts, t) + p] == TrajectoryRow(ts[t].id, ts[t].path[p])
  {
    if t == 0 {
    } else {
      TrajectoryRowsAt(ts[1..], t - 1, p);
    }
  }

  /** A character absent from the pieces and the separator is absent from the join. */
  lemma {:induction false} JoinAvoids(pieces: seq<string>, sep: string, c: char)
    requires c !in sep
    requires forall k :: 0 <= k < |pieces| ==> c !in pieces[k]
    ensures c !in Join(pieces, sep)
  {
    if |pieces| > 1 {
      JoinAvoids(pieces[1..], sep, c);
    }
  }

  /** No CSV line holds a carriage return when no key of the first row and
      no stringified value does. */
  lemma CsvLinesAvoidCr(data: seq<Row>, stringify: Value -> string)
    requires |data| > 0
    requires forall k :: 0 <= k < |data[0]| ==> '\r' !in data[0][k].0
    requires forall v :: '\r' !in stringify(v)
    ensures forall k :: 0 <= k < |CsvLines(data, stringify)| ==> '\r' !in CsvLines(data, stringify)[k]
  {
    var headers := Keys(data[0]);
    JoinAvoids(headers, ",", '\r');
    forall i | 0 <= i < |data|
      ensures '\r' !in RowLine(data[i], headers, stringify)
    {
      var cells := seq(|headers|, j requires 0 <= j < |headers| => Cell(data[i], headers[j], stringify));
      assert forall j :: 0 <= j < |cells| ==> '\r' !in cells[j];
      JoinAvoids(cells, ",", '\r');
    }
  }

  /** Splitting the CSV text at "\r\n" gives back the header line (the first
      row's keys joined by commas) and one line per row, in order, when
      neither the first row's keys nor any stringified value hold a carriage
      return. */
  lemma CsvSplitsIntoLines(data: seq<Row>, stringify: Value -> string)
    requires |data| > 0
    requires forall k :: 0 <= k < |data[0]| ==> '\r' !in data[0][k].0
    requires forall v :: '\r' !in stringify(v)
    ensures var lines := Split(ConvertToCsv(data, stringify), "\r\n");
      && |lines| == |data| + 1
      && lines[0] == Join(Keys(data[0]), ",")
      && (forall i :: 0 <= i < |data| ==> lines[i + 1] == RowLine(data[i], Keys(data[0]), stringify))
  {
    CsvLinesAvoidCr(data, stringify);
    SplitJoin(CsvLines(data, stringify), "\r\n");
  }

  /** A CSV download of a data visualization is the header line of the
      first flattened row's keys followed by one line per flattened row. */
  lemma CsvDownloadLines(v: VisualizationData, stringify: Value -> string, stringifyRows: seq<Row> -> string)
    requires v.IsDataVisualization() && |Flatten(v)| > 0
    requires forall k :: 0 <= k < |Flatten(v)[0]| ==> '\r' !in Flatten(v)[0][k].0
    requires forall x :: '\r' !in stringify(x)
    ensures var r := ExportData(v, Csv, stringify, stringifyRows);
      var rows := Flatten(v);
      var lines := Split(r.content, "\r\n");
      && r.Download?
      && |lines| == |rows| + 1
      && lines[0] == Join(Keys(rows[0]), ",")
      && (forall i :: 0 <= i < |rows| ==> lines[i + 1] == RowLine(rows[i], Keys(rows[0]), stringify))
  {
    CsvSplitsIntoLines(Flatten(v), stringify);
  }

  /** Headers come from the first row only: fields of later rows under keys
      the first row lacks never reach the CSV text. */
  lemma CsvUsesFirstRowKeys(d1: seq<Row>, d2: seq<Row>, stringify: Value -> string)
    requires |d1| == |d2| > 0 && Keys(d1[0]) == Keys(d2[0])
    requires forall i, k :: 0 <= i < |d1| && k in Keys(d1[0]) ==> Lookup(d1[i], k) == Lookup(d2[i], k)
    ensures ConvertToCsv(d1, stringify) == ConvertToCsv(d2, stringify)
  {
    var headers := Keys(d1[0]);
    forall i | 0 <= i < |d1|
      ensures RowLine(d1[i], headers, stringify) == RowLine(d2[i], headers, stringify)
    {
      var c1 := seq(|headers|, j requires 0 <= j < |headers| => Cell(d1[i], headers[j], stringify));
      var c2 := seq(|headers|, j requires 0 <= j < |headers| => Cell(d2[i], headers[j], stringify));
      assert forall j :: 0 <= j < |headers| ==> headers[j] in headers;
      assert c1 == c2;
    }
    assert CsvLines(d1, stringify) == CsvLines(d2, stringify);
  }
}

=== FILE: filter_panel.dfy ===
/**
 * The filter panel: each control replaces one field of the filter record.
 */
module FilterPanel {
  import opened Types

  const SensorOptions: seq<string> := ["all", "temperature", "salinity", "oxygen"]

  datatype DateField = Start | End

  /** `handleDateChange`: sets one end of the date range. */
  function HandleDateChange(f: Filters, field: DateField, value: string): (r: Filters)
    ensures r.dateRange.start == (if field == Start then value else f.dateRange.start)
    ensures r.dateRange.end == (if field == End then value else f.dateRange.end)
    ensures r.sensorType == f.sensorType && r.region == f.region
    ensures r.depthRange == f.depthRange && r.floatId == f.floatId
  {
    match field
    case Start => f.(dateRange := f.dateRange.(start := value))
    case End => f.(dateRange := f.dateRange.(end := value))
  }

  /** Writing back the old value undoes a date change, and changes to the two
      ends commute. */
  lemma DateChangeUndo(f: Filters, field: DateField, value: string)
    ensures HandleDateChange(HandleDateChange(f, field, value), field,
                             if field == Start then f.dateRange.start else f.dateRange.end) == f
  {
  }

  lemma DateChangesCommute(f: Filters, s: string, e: string)
    ensures HandleDateChange(HandleDateChange(f, Start, s), End, e)
         == HandleDateChange(HandleDateChange(f, End, e), Start, s)
  {
  }

  /** `handleSensorChange`: sets the sensor type only. */
  function HandleSensorChange(f: Filters, value: string): (r: Filters)
    ensures r.sensorType == value
    ensures r.dateRange == f.dateRange && r.region == f.region
    ensures r.depthRange == f.depthRange && r.floatId == f.floatId
  {
    f.(sensorType := value)
  }

  /** One interaction with the panel's controls: a date input or the
      sensor drop-down. */
  datatype PanelEvent = DateChanged(field: DateField, value: string) | SensorChanged(value: string)

  /** The filters after a sequence of interactions, in order. */
  function ApplyAll(f: Filters, evs: seq<PanelEvent>): Filters {
    if |evs| == 0 then f
    else
      var g := ApplyAll(f, evs[..|evs| - 1]);
      match evs[|evs| - 1]
      case DateChanged(field, value) => HandleDateChange(g, field, value)
      case SensorChanged(value) => HandleSensorChange(g, value)
  }

  /** Starting from an offered sensor, any use of the panel whose drop-down
      choices are among its options keeps the controlled select on an
      offered option, and never touches region, depth range or float id. */
  lemma {:induction false} SelectStaysOnOptions(f: Filters, evs: seq<PanelEvent>)
    requires f.sensorType in SensorOptions
    requires forall i :: 0 <= i < |evs| && evs[i].SensorChanged? ==> evs[i].value in SensorOptions
    ensures var r := ApplyAll(f, evs);
      && r.sensorType in SensorOptions
      && r.region == f.region && r.depthRange == f.depthRange && r.floatId == f.floatId
  {
    if |evs| > 0 {
      var init := evs[..|evs| - 1];
      assert forall i :: 0 <= i < |init| ==> init[i] == evs[i];
      SelectStaysOnOptions(f, init);
    }
  }
}

=== FILE: gemini.dfy ===
/**
 * The client layer of the generative-model service: the API key check, the
 * language-name table, the persona's instruction branch, and the chat cache
 * keyed by language and persona.
 */
module Gemini {
  import opened Wrappers
  import opened Types

  const ModelName: string := "gemini-2.5-flash"
  const MissingKeyMessage: string := "API_KEY environment variable not set"
  const DefaultLanguageName: string := "English"

  /** `getApiKey`: `env` is the `API_KEY` environment variable. */
  function ApiKey(env: Option<string>): (r: Result<string, string>)
    ensures r.Success? <==> Truthy(env)
    ensures r.Success? ==> r.value == env.value
    ensures r.Failure? ==> r.error == MissingKeyMessage
  {
    if Truthy(env) then Success(env.value) else Failure(MissingKeyMessage)
  }

  const LanguageNames: map<string, string> := map[
    "en" := "English", "es" := "Spanish", "fr" := "French", "de" := "German", "hi" := "Hindi",
    "ja" := "Japanese", "zh" := "Mandarin Chinese (Simplified)", "ru" := "Russian",
    "pt" := "Portuguese", "ar" := "Arabic", "it" := "Italian"]

  /** The language's display name, English for a code outside the table. */
  function LanguageName(code: string): (r: string)
    ensures r == DefaultLanguageName <==> code == "en" || code !in LanguageNames
    ensures r in LanguageNames.Values
    ensures code in LanguageNames ==> r == LanguageNames[code]
    ensures code !in LanguageNames ==> r == DefaultLanguageName
  {
    assert LanguageNames["en"] == DefaultLanguageName;
    if code in LanguageNames && LanguageNames[code] != "" then LanguageNames[code] else DefaultLanguageName
  }

  /** Which system instruction a chat gets, with the language it must use. */
  datatype Instruction =
    | OceanExpert(languageName: string)
    | Summarizer(languageName: string)
    | GameMaster(languageName: string)
    | Conversational(languageName: string)

  /** `getSystemInstruction`: three named personas, everything else
      conversational. */
  function SystemInstruction(persona: string, languageName: string): (r: Instruction)
    ensures r.languageName == languageName
    ensures r.OceanExpert? <==> persona == "ocean_expert"
    ensures r.Summarizer? <==> persona == "summarizer"
    ensures r.GameMaster? <==> persona == "game_master"
    ensures r.Conversational? <==> persona !in {"ocean_expert", "summarizer", "game_master"}
  {
    if persona == "ocean_expert" then OceanExpert(languageName)
    else if persona == "summarizer" then Summarizer(languageName)
    else if persona == "game_master" then GameMaster(languageName)
    else Conversational(languageName)
  }

  /** The cache key. */
  function ChatKey(language: string, persona: string): string {
    language + "-" + persona
  }

  /** In a key whose persona has no dash, the last dash is the separator. */
  lemma SeparatorIsLastDash(language: string, persona: string)
    requires '-' !in persona
    ensures var k := ChatKey(language, persona);
      k[|language|] == '-' && forall i :: |language| < i < |k| ==> k[i] != '-'
  {
    var k := ChatKey(language, persona);
    forall i | |language| < i < |k|
      ensures k[i] != '-'
    {
      assert k[i] == persona[i - |language| - 1];
    }
  }

  /** The key determines the language and persona when persona names have
      no dash. */
  lemma ChatKeyInjective(l1: string, p1: string, l2: string, p2: string)
    requires '-' !in p1 && '-' !in p2
    requires ChatKey(l1, p1) == ChatKey(l2, p2)
    ensures l1 == l2 && p1 == p2
  {
    var k := ChatKey(l1, p1);
    SeparatorIsLastDash(l1, p1);
    SeparatorIsLastDash(l2, p2);
    assert |l1| == |l2|;
    assert l1 == k[..|l1|] == l2;
    assert p1 == k[|l1| + 1..] == p2;
  }

  /** With a dash in a persona name, two pairs can share a key. */
  lemma ChatKeyCollides()
    ensures ChatKey("en-x", "y") == ChatKey("en", "x-y")
  {
  }

  /** A chat handle: `serial` distinguishes instances. */
  datatype Chat = Chat(serial: nat, model: string, instruction: Instruction)

  /** The cache and the number of chats created so far. */
  datatype Registry = Registry(chats: map<string, Chat>, created: nat)

  /** Every chat ever created is still cached under its own key, and no two
      keys share an instance. */
  predicate Valid(reg: Registry) {
    && reg.created == |reg.chats|
    && (forall k :: k in reg.chats ==> reg.chats[k].serial < reg.created)
    && (forall k1, k2 :: k1 in reg.chats && k2 in reg.chats && k1 != k2 ==> reg.chats[k1].serial != reg.chats[k2].serial)
  }

  function EmptyRegistry(): (r: Registry)
    ensures Valid(r)
  {
    Registry(map[], 0)
  }

  /** `getChat`: the cached chat for the key, created on first use. */
  function GetChat(reg: Registry, language: string, persona: string): (r: (Chat, Registry))
    ensures ChatKey(language, persona) in reg.chats ==> r == (reg.chats[ChatKey(language, persona)], reg)
    ensures ChatKey(language, persona) !in reg.chats ==>
      && r.0 == Chat(reg.created, ModelName, SystemInstruction(persona, LanguageName(language)))
      && r.1 == Registry(reg.chats[ChatKey(language, persona) := r.0], reg.created + 1)
    ensures ChatKey(language, persona) in r.1.chats && r.1.chats[ChatKey(language, persona)] == r.0
  {
    var key := ChatKey(language, persona);
    if key in reg.chats then (reg.chats[key], reg)
    else
      var chat := Chat(reg.created, ModelName, SystemInstruction(persona, LanguageName(language)));
      (chat, Registry(reg.chats[key := chat], reg.created + 1))
  }

  /** The cache keeps its invariant, and a second call returns the same
      instance without creating another. */
  lemma GetChatKeepsValid(reg: Registry, language: string, persona: string)
    requires Valid(reg)
    ensures Valid(GetChat(reg, language, persona).1)
    ensures var (c, reg') := GetChat(reg, language, persona); GetChat(reg', language, persona) == (c, reg')
  {
    var key := ChatKey(language, persona);
    if key !in reg.chats {
      var reg' := GetChat(reg, language, persona).1;
      assert reg'.chats.Keys == reg.chats.Keys + {key};
      assert |reg'.chats| == |reg.chats| + 1;
    }
  }

  /** Serves a sequence of `(language, persona)` lookups. */
  function GetChats(reg: Registry, calls: seq<(string, string)>): (r: Registry)
    decreases |calls|
  {
    if |calls| == 0 then reg else GetChats(GetChat(reg, calls[0].0, calls[0].1).1, calls[1..])
  }

  /** The keys a sequence of lookups uses. */
  function KeysUsed(calls: seq<(string, string)>): set<string>
    decreases |calls|
  {
    if |calls| == 0 then {} else {ChatKey(calls[0].0, calls[0].1)} + KeysUsed(calls[1..])
  }

  /** Over any sequence of lookups the cache ends up holding exactly the
      keys it held plus the keys used. */
  lemma {:induction false} CachedKeys(reg: Registry, calls: seq<(string, string)>)
    ensures GetChats(reg, calls).chats.Keys == reg.chats.Keys + KeysUsed(calls)
    decreases |calls|
  {
    if |calls| > 0 {
      var next := GetChat(reg, calls[0].0, calls[0].1).1;
      CachedKeys(next, calls[1..]);
      assert next.chats.Keys == reg.chats.Keys + {ChatKey(calls[0].0, calls[0].1)};
    }
  }

  /** ... and holds one chat per key: the count of chats created equals the
      number of keys, and no two keys share an instance. */
  lemma {:induction false} OneChatPerKey(reg: Registry, calls: seq<(string, string)>)
    requires Valid(reg)
    ensures Valid(GetChats(reg, calls))
    decreases |calls|
  {
    if |calls| > 0 {
      GetChatKeepsValid(reg, calls[0].0, calls[0].1);
      OneChatPerKey(GetChat(reg, calls[0].0, calls[0].1).1, calls[1..]);
    }
  }

  /** `streamGeminiResponse`: the chat for the pair is looked up, the message
      sent with `send`, and a failure to start the stream handed back
      unchanged. */
  function StreamResponse(reg: Registry, message: string, language: string, persona: string,
                          send: (Chat, string) -> Result<Stream, string>): (r: (Result<Stream, string>, Registry))
    ensures ChatKey(language, persona) in r.1.chats
    ensures r.0 == send(r.1.chats[ChatKey(language, persona)], message)
    ensures ChatKey(language, persona) in reg.chats ==> r.1 == reg
    ensures ChatKey(language, persona) !in reg.chats ==>
      && r.1.chats.Keys == reg.chats.Keys + {ChatKey(language, persona)}
      && (forall k :: k in reg.chats ==> r.1.chats[k] == reg.chats[k])
  {
    var (chat, reg') := GetChat(reg, language, persona);
    (send(chat, message), reg')
  }

  /** A second message for the same pair goes to the same chat and leaves
      the cache as the first left it, whether or not the first send failed:
      the chat is cached before the stream is requested. */
  lemma StreamAgain(reg: Registry, message: string, message': string, language: string, persona: string,
                    send: (Chat, string) -> Result<Stream, string>)
    requires Valid(reg)
    ensures var (first, reg1) := StreamResponse(reg, message, language, persona, send);
      var (second, reg2) := StreamResponse(reg1, message', language, persona, send);
      var chat := reg1.chats[ChatKey(language, persona)];
      && Valid(reg1)
      && reg2 == reg1
      && first == send(chat, message)
      && second == send(chat, message')
  {
    var reg1 := StreamResponse(reg, message, language, persona, send).1;
    GetChatKeepsValid(reg, language, persona);
    assert reg1 == GetChat(reg, language, persona).1;
  }
}

=== FILE: text.dfy ===
/**
 * The JavaScript string operations the response interpreters rely on:
 * `trim`, the regular-expression class `\s`, `indexOf`/`includes`,
 * `split(sep)[0]`, `endsWith`, `Array.prototype.join` and `split`.
 * Strings are sequences of code points.
 */
module Text {
  import opened Wrappers

  /** ECMAScript WhiteSpace and LineTerminator code points: exactly what
      `String.prototype.trim` strips and what the class `\s` matches. */
  predicate IsSpace(c: char) {
    var n := c as int;
    (9 <= n <= 13) || n == 0x20 || n == 0xA0 || n == 0x1680
    || (0x2000 <= n <= 0x200A) || n == 0x2028 || n == 0x2029
    || n == 0x202F || n == 0x205F || n == 0x3000 || n == 0xFEFF
  }

  predicate AllSpace(s: string) {
    forall i :: 0 <= i < |s| ==> IsSpace(s[i])
  }

  /** The first index at or after `i` that does not hold white space. */
  function SkipSpace(s: string, i: nat): (k: nat)
    requires i <= |s|
    decreases |s| - i
    ensures i <= k <= |s|
    ensures forall j :: i <= j < k ==> IsSpace(s[j])
    ensures k == |s| || !IsSpace(s[k])
  {
    if i < |s| && IsSpace(s[i]) then SkipSpace(s, i + 1) else i
  }

  /** The start of the run of white space that ends at `e`, not going below `lo`. */
  function SpaceRunStart(s: string, lo: nat, e: nat): (k: nat)
    requires lo <= e <= |s|
    decreases e
    ensures lo <= k <= e
    ensures forall j :: k <= j < e ==> IsSpace(s[j])
    ensures k == lo || !IsSpace(s[k - 1])
  {
    if e > lo && IsSpace(s[e - 1]) then SpaceRunStart(s, lo, e - 1) else e
  }

  /** `String.prototype.trim`: the infix left once leading and trailing white
      space are stripped. */
  function Trim(s: string): (r: string)
    ensures var a := SkipSpace(s, 0);
      a + |r| <= |s| && r == s[a..a + |r|] && AllSpace(s[..a]) && AllSpace(s[a + |r|..])
    ensures r == [] || (!IsSpace(r[0]) && !IsSpace(r[|r| - 1]))
    ensures r == [] <==> AllSpace(s)
  {
    var a := SkipSpace(s, 0);
    var b := SpaceRunStart(s, a, |s|);
    assert AllSpace(s[..a]) by {
      forall j | 0 <= j < a ensures IsSpace(s[..a][j]) { assert s[..a][j] == s[j]; }
    }
    assert AllSpace(s[b..]) by {
      forall j | 0 <= j < |s| - b ensures IsSpace(s[b..][j]) { assert s[b..][j] == s[b + j]; }
    }
    assert b > a ==> !IsSpace(s[a]);
    s[a..b]
  }

  /** `pat` occurs in `s` starting at index `i`. */
  predicate OccursAt(s: string, pat: string, i: nat) {
    i + |pat| <= |s| && s[i..i + |pat|] == pat
  }

  /** The first occurrence of `pat` in `s` at or after `from`. */
  function IndexFrom(s: string, pat: string, from: nat): (r: Option<nat>)
    decreases |s| - from
    ensures r.Some? ==> from <= r.value && OccursAt(s, pat, r.value)
    ensures r.Some? ==> forall j: nat :: from <= j < r.value ==> !OccursAt(s, pat, j)
    ensures r.None? ==> forall j: nat :: from <= j ==> !OccursAt(s, pat, j)
  {
    if from + |pat| > |s| then None
    else if OccursAt(s, pat, from) then Some(from)
    else IndexFrom(s, pat, from + 1)
  }

  /** `s.indexOf(pat)`, with None for -1. */
  function IndexOf(s: string, pat: string): (r: Option<nat>)
    ensures r.Some? ==> OccursAt(s, pat, r.value)
    ensures r.Some? ==> forall j: nat :: j < r.value ==> !OccursAt(s, pat, j)
    ensures r.None? ==> forall j: nat :: !OccursAt(s, pat, j)
  {
    IndexFrom(s, pat, 0)
  }

  /** `s.includes(pat)`. */
  predicate Contains(s: string, pat: string) {
    IndexOf(s, pat).Some?
  }

  /** `s.split(pat)[0]`: everything before the first occurrence of `pat`,
      or all of `s` when `pat` does not occur. */
  function Before(s: string, pat: string): (r: string)
    ensures |r| <= |s| && r == s[..|r|]
  {
    match IndexOf(s, pat)
    case Some(i) => s[..i]
    case None => s
  }

  /** `s.endsWith(pat)`. */
  predicate EndsWith(s: string, pat: string) {
    |pat| <= |s| && s[|s| - |pat|..] == pat
  }

  /** Any index where `pat` occurs is at least the first occurrence. */
  lemma FirstOccurrence(s: string, pat: string, i: nat)
    requires OccursAt(s, pat, i)
    ensures IndexOf(s, pat).Some? && IndexOf(s, pat).value <= i
  {
  }

  /** Appending text never moves an existing first occurrence: the split
      point of an accumulating stream is stable once the pattern appears. */
  lemma {:induction false} IndexOfExtend(a: string, b: string, pat: string)
    requires Contains(a, pat)
    ensures IndexOf(a + b, pat) == IndexOf(a, pat)
  {
    var i := IndexOf(a, pat).value;
    assert (a + b)[i..i + |pat|] == a[i..i + |pat|];
    assert OccursAt(a + b, pat, i);
    FirstOccurrence(a + b, pat, i);
    var k := IndexOf(a + b, pat).value;
    if k < i {
      assert (a + b)[k..k + |pat|] == a[k..k + |pat|];
      assert OccursAt(a, pat, k);
      assert false;
    }
  }

  /** Corollary for `split(pat)[0]`: the text before the first occurrence is frozen. */
  lemma BeforeExtend(a: string, b: string, pat: string)
    requires Contains(a, pat)
    ensures Before(a + b, pat) == Before(a, pat)
  {
    IndexOfExtend(a, b, pat);
    var i := IndexOf(a, pat).value;
    assert (a + b)[..i] == a[..i];
  }

  /** The text before the first occurrence of a non-empty pattern never
      contains that pattern. */
  lemma BeforeExcludes(s: string, pat: string)
    requires |pat| > 0
    ensures !Contains(Before(s, pat), pat)
  {
    match IndexOf(s, pat)
    case None =>
    case Some(i) =>
      var r := s[..i];
      if Contains(r, pat) {
        var j := IndexOf(r, pat).value;
        assert r[j..j + |pat|] == s[j..j + |pat|];
        assert OccursAt(s, pat, j);
        assert false;
      }
  }

  /** `s` is `core` with white space on both sides. */
  predicate Padded(s: string, core: string) {
    exists a: nat :: a + |core| <= |s| && s[a..a + |core|] == core && AllSpace(s[..a]) && AllSpace(s[a + |core|..])
  }

  /** Trimming leaves a core that neither starts nor ends with white space,
      padded by white space on both sides. */
  lemma TrimPadded(s: string)
    ensures Padded(s, Trim(s))
    ensures Trim(s) == [] || (!IsSpace(Trim(s)[0]) && !IsSpace(Trim(s)[|Trim(s)| - 1]))
  {
    var a := SkipSpace(s, 0);
    assert a + |Trim(s)| <= |s| && s[a..a + |Trim(s)|] == Trim(s);
  }

  /** An occurrence in a suffix is an occurrence in the whole string, shifted. */
  lemma OccursShift(s: string, pat: string, off: nat, j: nat)
    requires off <= |s|
    ensures OccursAt(s[off..], pat, j) <==> OccursAt(s, pat, off + j)
  {
    if off + j + |pat| <= |s| {
      assert s[off..][j..j + |pat|] == s[off + j..off + j + |pat|];
    }
  }

  /** The leftmost `open` and the first `close` that starts after it, as the
      pair of their indices: the span a lazy `open[\s\S]*?close` pattern
      matches, since no match can start before the leftmost `open` and a
      later `open` has no `close` after it when the leftmost has none. */
  function FirstEnclosed(s: string, open: string, close: string): (r: Option<(nat, nat)>)
    ensures r.Some? ==> r.value.0 + |open| <= r.value.1 && OccursAt(s, close, r.value.1)
  {
    match IndexOf(s, open)
    case None => None
    case Some(i) =>
      match IndexOf(s[i + |open|..], close)
      case None => None
      case Some(p) =>
        OccursShift(s, close, i + |open|, p);
        Some((i, i + |open| + p))
  }

  /** How a span is found: the leftmost `open`, then the first `close` in
      the text after it. */
  lemma FirstEnclosedParts(s: string, open: string, close: string)
    ensures var io := IndexOf(s, open);
      && (io.None? ==> FirstEnclosed(s, open, close).None?)
      && (io.Some? ==>
            var ic := IndexOf(s[io.value + |open|..], close);
            && (ic.None? ==> FirstEnclosed(s, open, close).None?)
            && (ic.Some? ==> FirstEnclosed(s, open, close) == Some((io.value, io.value + |open| + ic.value))))
  {
  }

  /** No occurrence in a window of a suffix means none in the shifted
      window of the whole string. */
  lemma ShiftedAbsent(s: string, pat: string, off: nat, hi: nat)
    requires off <= |s|
    requires forall q: nat :: q < hi ==> !OccursAt(s[off..], pat, q)
    ensures forall k: nat :: off <= k < off + hi ==> !OccursAt(s, pat, k)
  {
    forall k: nat | off <= k < off + hi
      ensures !OccursAt(s, pat, k)
    {
      OccursShift(s, pat, off, k - off);
    }
  }

  /** No occurrence in a suffix means none at or after its start. */
  lemma ShiftedNone(s: string, pat: string, off: nat)
    requires off <= |s| && IndexOf(s[off..], pat).None?
    ensures forall k: nat :: off <= k ==> !OccursAt(s, pat, k)
  {
    forall k: nat | off <= k
      ensures !OccursAt(s, pat, k)
    {
      if k <= |s| {
        OccursShift(s, pat, off, k - off);
      }
    }
  }

  /** A span found starts at the leftmost `open`, and no `close` starts
      strictly inside it, nor lies within it. */
  lemma FirstEnclosedSound(s: string, open: string, close: string)
    requires |close| > 0
    requires FirstEnclosed(s, open, close).Some?
    ensures var (i, j) := FirstEnclosed(s, open, close).value;
      && OccursAt(s, open, i)
      && (forall k: nat :: k < i ==> !OccursAt(s, open, k))
      && (forall k: nat :: i + |open| <= k < j ==> !OccursAt(s, close, k))
      && !Contains(s[i + |open|..j], close)
  {
    FirstEnclosedParts(s, open, close);
    var i := IndexOf(s, open).value;
    var rest := s[i + |open|..];
    var p := IndexOf(rest, close).value;
    var j := i + |open| + p;
    assert FirstEnclosed(s, open, close).value == (i, j);
    ShiftedAbsent(s, close, i + |open|, p);
    BeforeExcludes(rest, close);
    assert Before(rest, close) == s[i + |open|..j];
  }

  /** No span is found exactly when no `open` is followed by a `close`. */
  lemma FirstEnclosedComplete(s: string, open: string, close: string)
    ensures FirstEnclosed(s, open, close).None? <==>
      forall i: nat, j: nat :: OccursAt(s, open, i) && i + |open| <= j ==> !OccursAt(s, close, j)
  {
    FirstEnclosedParts(s, open, close);
    var io := IndexOf(s, open);
    if io.Some? {
      var i := io.value;
      var ic := IndexOf(s[i + |open|..], close);
      if ic.None? {
        ShiftedNone(s, close, i + |open|);
      } else {
        OccursShift(s, close, i + |open|, ic.value);
        assert OccursAt(s, close, i + |open| + ic.value);
      }
    }
  }

  /** A string that ends with `pat` contains it. */
  lemma EndsWithContains(s: string, pat: string)
    requires EndsWith(s, pat)
    ensures Contains(s, pat)
  {
    FirstOccurrence(s, pat, |s| - |pat|);
  }

  /** Concatenation of chunks in arrival order (`acc += chunk`). */
  function Concat(chunks: seq<string>): string {
    if |chunks| == 0 then "" else Concat(chunks[..|chunks| - 1]) + chunks[|chunks| - 1]
  }

  /** Concatenation distributes over joining chunk lists. */
  lemma {:induction false} ConcatAppend(a: seq<string>, b: seq<string>)
    ensures Concat(a + b) == Concat(a) + Concat(b)
  {
    if |b| > 0 {
      assert (a + b)[..|a + b| - 1] == a + b[..|b| - 1];
      ConcatAppend(a, b[..|b| - 1]);
    } else {
      assert a + b == a;
    }
  }

  /** `lines.join(sep)`. */
  function Join(lines: seq<string>, sep: string): string {
    if |lines| == 0 then ""
    else if |lines| == 1 then lines[0]
    else lines[0] + sep + Join(lines[1..], sep)
  }

  /** `s.split(sep)` for a non-empty separator. */
  function Split(s: string, sep: string): (r: seq<string>)
    requires |sep| > 0
    decreases |s|
    ensures |r| > 0
  {
    match IndexOf(s, sep)
    case None => [s]
    case Some(i) => [s[..i]] + Split(s[i + |sep|..], sep)
  }

  /** A pattern cannot occur where its first character never appears. */
  lemma NoFirstCharNoOccurrence(s: string, pat: string, j: nat)
    requires |pat| > 0 && j <= |s| && pat[0] !in s[..j]
    ensures forall i: nat :: i < j ==> !OccursAt(s, pat, i)
  {
    forall i: nat | i < j
      ensures !OccursAt(s, pat, i)
    {
      assert s[i] == s[..j][i];
      if i + |pat| <= |s| {
        assert s[i..i + |pat|][0] == s[i];
      }
    }
  }

  /** Splitting a join recovers the pieces when no piece contains the
      separator's first character. */
  lemma {:induction false} SplitJoin(lines: seq<string>, sep: string)
    requires |sep| > 0 && |lines| > 0
    requires forall k :: 0 <= k < |lines| ==> sep[0] !in lines[k]
    ensures Split(Join(lines, sep), sep) == lines
  {
    var l := lines[0];
    if |lines| == 1 {
      assert l[..|l|] == l;
      NoFirstCharNoOccurrence(l, sep, |l|);
    } else {
      var rest := Join(lines[1..], sep);
      var s := l + sep + rest;
      assert s[..|l|] == l;
      assert s[|l|..|l| + |sep|] == sep;
      assert sep[0] !in s[..|l|];
      NoFirstCharNoOccurrence(s, sep, |l|);
      FirstOccurrence(s, sep, |l|);
      assert IndexOf(s, sep) == Some(|l|);
      assert s[|l| + |sep|..] == rest;
      SplitJoin(lines[1..], sep);
    }
  }
}

=== FILE: transcript.dfy ===
/**
 * The transcript updates shared by the three chat pages: a send appends the
 * user message and an empty assistant placeholder, and every later update
 * replaces the text of the message whose id is the placeholder's.
 */
module Transcript {
  import opened Text
  import opened Types

  /** `prev.map(msg => msg.id === id ? {...msg, text} : msg)`. */
  function SetText(msgs: seq<Message>, id: string, text: string): (r: seq<Message>)
    ensures |r| == |msgs|
    ensures forall i :: 0 <= i < |msgs| ==> r[i].id == msgs[i].id && r[i].sender == msgs[i].sender
    ensures forall i :: 0 <= i < |msgs| && msgs[i].id != id ==> r[i] == msgs[i]
    ensures forall i :: 0 <= i < |msgs| && msgs[i].id == id ==> r[i].text == text
  {
    if |msgs| == 0 then []
    else SetText(msgs[..|msgs| - 1], id, text)
         + [if msgs[|msgs| - 1].id == id then msgs[|msgs| - 1].(text := text) else msgs[|msgs| - 1]]
  }

  /** A later text replacement overrides an earlier one. */
  lemma {:induction false} SetTextTwice(msgs: seq<Message>, id: string, a: string, b: string)
    ensures SetText(SetText(msgs, id, a), id, b) == SetText(msgs, id, b)
  {
    if |msgs| > 0 {
      var m := SetText(msgs, id, a);
      assert m[..|m| - 1] == SetText(msgs[..|msgs| - 1], id, a);
      SetTextTwice(msgs[..|msgs| - 1], id, a, b);
    }
  }

  /** No message has this id. */
  predicate FreshId(msgs: seq<Message>, id: string) {
    forall i :: 0 <= i < |msgs| ==> msgs[i].id != id
  }

  /** The two messages appended by a non-blank send. */
  function OpenExchange(msgs: seq<Message>, userId: string, text: string, aiId: string): seq<Message> {
    msgs + [Message(userId, text, User), Message(aiId, "", Ai)]
  }

  /** A send with fresh, distinct ids: every later update to the placeholder
      leaves the earlier messages and the user message alone and lands on
      the placeholder, which keeps its id and sender. */
  lemma OnlyPlaceholderChanges(msgs: seq<Message>, userId: string, text: string, aiId: string, t: string)
    requires FreshId(msgs, aiId) && userId != aiId
    ensures var r := SetText(OpenExchange(msgs, userId, text, aiId), aiId, t);
      |r| == |msgs| + 2 && r[..|msgs|] == msgs && r[|msgs|] == Message(userId, text, User)
      && r[|msgs| + 1] == Message(aiId, t, Ai)
  {
    var o := OpenExchange(msgs, userId, text, aiId);
    assert o[|msgs|].id == userId && o[|msgs| + 1].id == aiId;
    assert forall i :: 0 <= i < |msgs| ==> o[i] == msgs[i];
  }

  /** Accumulating stream delivery: after each chunk the placeholder shows
      everything received so far.  Returns the messages and the accumulator. */
  function Accumulate(msgs: seq<Message>, aiId: string, chunks: seq<string>): (r: (seq<Message>, string))
    ensures |r.0| == |msgs|
  {
    if |chunks| == 0 then (msgs, "")
    else
      var (m, acc) := Accumulate(msgs, aiId, chunks[..|chunks| - 1]);
      var acc' := acc + chunks[|chunks| - 1];
      (SetText(m, aiId, acc'), acc')
  }

  /** The placeholder's text always equals the concatenation of the chunks
      received so far, with no splitting. */
  lemma {:induction false} AccumulateShowsConcat(msgs: seq<Message>, aiId: string, chunks: seq<string>)
    ensures Accumulate(msgs, aiId, chunks).1 == Concat(chunks)
    ensures |chunks| > 0 ==> Accumulate(msgs, aiId, chunks).0 == SetText(msgs, aiId, Concat(chunks))
    ensures |chunks| == 0 ==> Accumulate(msgs, aiId, chunks).0 == msgs
  {
    if |chunks| > 0 {
      var init := chunks[..|chunks| - 1];
      AccumulateShowsConcat(msgs, aiId, init);
      if |init| > 0 {
        SetTextTwice(msgs, aiId, Concat(init), Concat(chunks));
      }
    }
  }

  /** After streaming, replacing the placeholder's text leaves the earlier
      transcript and the user message as they were. */
  lemma PlaceholderOnly(msgs: seq<Message>, text: string, chunks: seq<string>, userId: string, aiId: string,
                        t: string)
    requires FreshId(msgs, aiId) && userId != aiId
    ensures SetText(Accumulate(OpenExchange(msgs, userId, text, aiId), aiId, chunks).0, aiId, t)
         == msgs + [Message(userId, text, User), Message(aiId, t, Ai)]
  {
    var started := OpenExchange(msgs, userId, text, aiId);
    var streamed := Accumulate(started, aiId, chunks).0;
    assert SetText(streamed, aiId, t) == SetText(started, aiId, t) by {
      AccumulateShowsConcat(started, aiId, chunks);
      if |chunks| > 0 { SetTextTwice(started, aiId, Concat(chunks), t); }
    }
    OnlyPlaceholderChanges(msgs, userId, text, aiId, t);
  }
}

=== FILE: trivia.dfy ===
/**
 * The ocean trivia game: a ten-question state machine driven by the player's
 * clicks and by the arrival of each question from the streaming service.
 */
module Trivia {
  import opened Wrappers
  import opened Text
  import opened Types

  const MaxQuestions: nat := 10
  const PointsPerCorrectAnswer: nat := 5
  const HintCost: nat := 2
  const QuestionPrompt: string := "Generate a new ocean trivia question."
  const Persona: string := "game_master"
  const BlockOpen: string := "```json\n"
  const BlockClose: string := "\n```"
  const InvalidFormatMessage: string := "Invalid response format from AI. Please try again."

  datatype GameState = Idle | Playing | Finished

  datatype TriviaQuestion = TriviaQuestion(question: string, options: seq<string>, answer: string,
                                           hint: string, explanation: string)

  /** Why a fetch failed: the whole response was not JSON (the fixed
      message), the fenced block was not JSON (the parser's own message), or
      the stream itself failed. */
  datatype GameError = InvalidResponseFormat | BlockSyntaxError | TransportError

  /** `JSON.parse` followed by the cast to a question; `None` when it throws. */
  type QuestionParser = string -> Option<TriviaQuestion>

  datatype Game = Game(gameState: GameState, question: Option<TriviaQuestion>, score: int, highScore: int,
                       isNewHighScore: bool, questionCount: int, isLoading: bool,
                       selectedAnswer: Option<string>, isCorrect: Option<bool>, error: Option<GameError>,
                       hintUsed: bool)

  /** The score and question-count bounds every reachable state keeps: scores
      never go negative, a question in play has earned at most its five
      points, and a finished game has played exactly ten questions. */
  predicate Inv(g: Game) {
    && 0 <= g.score
    && 0 <= g.questionCount <= MaxQuestions
    && (g.isLoading ==> g.gameState == Playing)
    && (g.gameState == Idle ==> g.score == 0 && g.questionCount == 0)
    && (g.gameState == Playing ==>
          && 1 <= g.questionCount
          && !g.isNewHighScore
          && g.score <= PointsPerCorrectAnswer * g.questionCount
          && (g.selectedAnswer.None? ==> g.score <= PointsPerCorrectAnswer * (g.questionCount - 1)))
    && (g.gameState == Finished ==> g.questionCount == MaxQuestions && g.score <= PointsPerCorrectAnswer * MaxQuestions)
  }

  /** The mounted component; `savedHighScore` is the stored high score when
      one was stored. */
  function InitialGame(savedHighScore: Option<int>): (g: Game)
    ensures Inv(g) && g.gameState == Idle
    ensures g.highScore == savedHighScore.GetOr(0)
  {
    Game(Idle, None, 0, savedHighScore.GetOr(0), false, 0, false, None, None, None, false)
  }

  /** Every question is requested with no history, the empty filters and the
      game-master persona. */
  function FetchRequest(language: string): (r: Request)
    ensures r.history == [] && r.filters == EmptyFilters() && r.persona == "game_master"
    ensures r.message == QuestionPrompt && r.language == language
  {
    Request(QuestionPrompt, [], language, EmptyFilters(), Persona)
  }

  /** Group 1 of the first match of /```json\n([\s\S]*?)\n```/. */
  function MatchTriviaBlock(s: string): Option<string> {
    match FirstEnclosed(s, BlockOpen, BlockClose)
    case None => None
    case Some((i, j)) => Some(s[i + |BlockOpen|..j])
  }

  /** The group follows the leftmost opening line and runs up to the first
      closing line after it, which it does not contain. */
  lemma MatchTriviaBlockSound(s: string)
    requires MatchTriviaBlock(s).Some?
    ensures IndexOf(s, BlockOpen).Some?
    ensures var i := IndexOf(s, BlockOpen).value;
      var g := MatchTriviaBlock(s).value;
      && i + |BlockOpen| + |g| <= |s|
      && s[i + |BlockOpen|..i + |BlockOpen| + |g|] == g
      && OccursAt(s, BlockClose, i + |BlockOpen| + |g|)
      && !Contains(g, BlockClose)
  {
    FirstEnclosedSound(s, BlockOpen, BlockClose);
    var span := FirstEnclosed(s, BlockOpen, BlockClose).value;
    FirstOccurrence(s, BlockOpen, span.0);
  }

  /** No block is found exactly when no opening line is followed by a
      closing line. */
  lemma MatchTriviaBlockComplete(s: string)
    ensures MatchTriviaBlock(s).None? <==>
      forall i: nat, j: nat :: OccursAt(s, BlockOpen, i) && i + |BlockOpen| <= j ==> !OccursAt(s, BlockClose, j)
  {
    FirstEnclosedComplete(s, BlockOpen, BlockClose);
  }

  /** Lines 74-85: a non-empty fenced block is parsed and its failure is the
      parser's own error; otherwise the whole response is parsed and its
      failure becomes the fixed format error. */
  function ExtractQuestion(response: string, parse: QuestionParser): (r: Result<TriviaQuestion, GameError>)
    ensures Truthy(MatchTriviaBlock(response)) && parse(MatchTriviaBlock(response).value).Some? ==>
      r == Success(parse(MatchTriviaBlock(response).value).value)
    ensures !Truthy(MatchTriviaBlock(response)) && parse(response).Some? ==> r == Success(parse(response).value)
    ensures r == Failure(BlockSyntaxError) <==> Truthy(MatchTriviaBlock(response)) && parse(MatchTriviaBlock(response).value).None?
    ensures r == Failure(InvalidResponseFormat) <==> !Truthy(MatchTriviaBlock(response)) && parse(response).None?
    ensures r.Failure? ==> r.error != TransportError
  {
    var block := MatchTriviaBlock(response);
    if Truthy(block) then
      match parse(block.value)
      case Some(q) => Success(q)
      case None => Failure(BlockSyntaxError)
    else
      match parse(response)
      case Some(q) => Success(q)
      case None => Failure(InvalidResponseFormat)
  }

  /** Bare JSON is accepted as it stands: when no opening line is ever
      followed by a closing line, and in particular when there is no
      opening line at all, the whole response is parsed, and its failure
      is the fixed format error. */
  lemma BareResponseParsed(response: string, parse: QuestionParser)
    ensures (forall i: nat, j: nat :: OccursAt(response, BlockOpen, i) && i + |BlockOpen| <= j ==> !OccursAt(response, BlockClose, j)) ==>
      ExtractQuestion(response, parse) == (match parse(response)
                                          case Some(q) => Success(q)
                                          case None => Failure(InvalidResponseFormat))
    ensures !Contains(response, BlockOpen) ==>
      ExtractQuestion(response, parse) == (match parse(response)
                                          case Some(q) => Success(q)
                                          case None => Failure(InvalidResponseFormat))
  {
  }

  /** Start of `fetchQuestion`: clear the previous answer, result, error and
      hint, and show the spinner. */
  function BeginFetch(g: Game): (r: Game)
    ensures r.isLoading && r.selectedAnswer.None? && r.isCorrect.None? && r.error.None? && !r.hintUsed
    ensures r.score == g.score && r.questionCount == g.questionCount && r.gameState == g.gameState
    ensures r.question == g.question && r.highScore == g.highScore
  {
    g.(isLoading := true, selectedAnswer := None, isCorrect := None, error := None, hintUsed := false)
  }

  /** End of `fetchQuestion`: the collected chunks become the question, or
      the error; the spinner goes away either way. */
  function CompleteFetch(g: Game, stream: Stream, parse: QuestionParser): (r: Game)
    ensures !r.isLoading
    ensures r.score == g.score && r.questionCount == g.questionCount && r.gameState == g.gameState
    ensures r.selectedAnswer == g.selectedAnswer && r.hintUsed == g.hintUsed && r.highScore == g.highScore
    ensures stream.fails ==> r.error == Some(TransportError) && r.question == g.question
    ensures !stream.fails ==>
      match ExtractQuestion(Concat(stream.chunks), parse)
      case Success(q) => r.question == Some(q) && r.error == g.error
      case Failure(e) => r.error == Some(e) && r.question == g.question
  {
    var outcome := if stream.fails then Failure(TransportError) else ExtractQuestion(Concat(stream.chunks), parse);
    match outcome
    case Success(q) => g.(question := Some(q), isLoading := false)
    case Failure(e) => g.(error := Some(e), isLoading := false)
  }

  /** `handleStartGame`. */
  function StartGame(g: Game): (r: Game)
    ensures r.gameState == Playing && r.questionCount == 1 && r.score == 0 && !r.isNewHighScore
    ensures r.isLoading && r.selectedAnswer.None? && !r.hintUsed && r.highScore == g.highScore
  {
    BeginFetch(g.(score := 0, questionCount := 1, gameState := Playing, hintUsed := false, isNewHighScore := false))
  }

  /** Recording `option` as the answer to the current question. */
  function Record(g: Game, option: string): (r: Game)
    requires g.question.Some?
    ensures r.selectedAnswer == Some(option)
    ensures r.isCorrect == Some(option == g.question.value.answer)
    ensures r.score == g.score + (if option == g.question.value.answer then PointsPerCorrectAnswer else 0)
    ensures r.questionCount == g.questionCount && r.question == g.question && r.gameState == g.gameState
  {
    var correct := option == g.question.value.answer;
    g.(selectedAnswer := Some(option), isCorrect := Some(correct),
       score := if correct then g.score + PointsPerCorrectAnswer else g.score)
  }

  /** `handleAnswerSelect` as written: the already-answered guard tests the
      truthiness of the selected answer, so an empty-string option counts as
      no answer at all. */
  function AnswerAsWritten(g: Game, option: string): (r: Game)
    ensures Truthy(g.selectedAnswer) || g.question.None? ==> r == g
    ensures !Truthy(g.selectedAnswer) && g.question.Some? ==> r.selectedAnswer == Some(option)
  {
    if Truthy(g.selectedAnswer) || g.question.None? then g else Record(g, option)
  }

  /** `handleAnswerSelect` with the guard the code evidently intends: once
      any answer is recorded, further selections are ignored. */
  function Answer(g: Game, option: string): (r: Game)
    ensures g.selectedAnswer.Some? || g.question.None? ==> r == g
    ensures g.selectedAnswer.None? && g.question.Some? ==>
      && r.selectedAnswer == Some(option)
      && (r.isCorrect == Some(true) <==> option == g.question.value.answer)
      && r.score - g.score == (if option == g.question.value.answer then PointsPerCorrectAnswer else 0)
  {
    if g.selectedAnswer.Some? || g.question.None? then g else Record(g, option)
  }

  /** A question scores at most once: a second selection changes nothing. */
  lemma AnswerOnce(g: Game, first: string, second: string)
    ensures Answer(Answer(g, first), second) == Answer(g, first)
  {
  }

  /** `handleUseHint`: costs two points, once per question, never below zero. */
  function UseHint(g: Game): (r: Game)
    ensures r.hintUsed <==> g.hintUsed || g.score >= HintCost
    ensures g.score >= 0 ==> r.score >= 0
    ensures r.score == g.score - (if !g.hintUsed && g.score >= HintCost then HintCost else 0)
  {
    if !g.hintUsed && g.score >= HintCost then g.(score := g.score - HintCost, hintUsed := true)
    else g
  }

  /** A hint is charged at most once per question. */
  lemma HintOnce(g: Game)
    ensures UseHint(UseHint(g)) == UseHint(g)
  {
  }

  /** `handleNextQuestion`: the next question, or the end of the game, where
      a score above the high score replaces it and is flagged as new. */
  function NextQuestion(g: Game): (r: Game)
    ensures g.questionCount < MaxQuestions ==>
      r.questionCount == g.questionCount + 1 && r.isLoading && r.gameState == g.gameState
    ensures g.questionCount >= MaxQuestions ==>
      && r.gameState == Finished
      && r.highScore == (if g.score > g.highScore then g.score else g.highScore)
      && r.highScore >= g.score
      && (r.isNewHighScore <==> g.isNewHighScore || g.score > g.highScore)
    ensures r.score == g.score
  {
    if g.questionCount < MaxQuestions then
      BeginFetch(g.(questionCount := g.questionCount + 1))
    else
      var recorded := if g.score > g.highScore then g.(highScore := g.score, isNewHighScore := true) else g;
      recorded.(gameState := Finished)
  }

  /** `handlePlayAgain`: back to the start screen; the high score stays. */
  function PlayAgain(g: Game): (r: Game)
    ensures r.gameState == Idle && r.question.None? && r.error.None? && r.score == 0 && r.questionCount == 0
    ensures r.highScore == g.highScore && r.isNewHighScore == g.isNewHighScore && r.isLoading == g.isLoading
    ensures !r.hintUsed
  {
    g.(gameState := Idle, question := None, error := None, score := 0, questionCount := 0, hintUsed := false)
  }

  /** What the player can do, and the arrival of a fetched question. */
  datatype Event = Start | Choose(option: string) | Hint | Next | Again | Fetched(stream: Stream)

  /** The question card is on screen: playing, not loading, no error. */
  predicate QuestionShown(g: Game) {
    g.gameState == Playing && !g.isLoading && g.error.None? && g.question.Some?
  }

  /** Which controls are on screen and enabled (the render function), with
      "answered" meaning an answer is recorded. */
  predicate Enabled(g: Game, e: Event) {
    match e
    case Start => g.gameState == Idle
    case Choose(option) => QuestionShown(g) && option in g.question.value.options && g.selectedAnswer.None?
    case Hint => QuestionShown(g) && !g.hintUsed && g.selectedAnswer.None? && g.score >= HintCost
    case Next => QuestionShown(g) && g.selectedAnswer.Some?
    case Again => g.gameState == Finished || (g.gameState == Playing && !g.isLoading && g.error.Some?)
    case Fetched(_) => g.isLoading
  }

  function Apply(g: Game, e: Event, parse: QuestionParser): Game {
    match e
    case Start => StartGame(g)
    case Choose(option) => Answer(g, option)
    case Hint => UseHint(g)
    case Next => NextQuestion(g)
    case Again => PlayAgain(g)
    case Fetched(stream) => CompleteFetch(g, stream, parse)
  }

  /** Every enabled event keeps the invariant. */
  lemma ApplyKeepsInv(g: Game, e: Event, parse: QuestionParser)
    requires Inv(g) && Enabled(g, e)
    ensures Inv(Apply(g, e, parse))
  {
  }

  /** A run of events, each enabled when it happens. */
  predicate Playable(g: Game, events: seq<Event>, parse: QuestionParser)
    decreases |events|
  {
    |events| == 0 || (Enabled(g, events[0]) && Playable(Apply(g, events[0], parse), events[1..], parse))
  }

  function Run(g: Game, events: seq<Event>, parse: QuestionParser): Game
    decreases |events|
  {
    if |events| == 0 then g else Run(Apply(g, events[0], parse), events[1..], parse)
  }

  /** Any playable run from a state within the bounds stays within them; in
      particular the score never exceeds fifty. */
  lemma {:induction false} RunKeepsInv(g: Game, events: seq<Event>, parse: QuestionParser)
    requires Inv(g) && Playable(g, events, parse)
    ensures Inv(Run(g, events, parse))
    ensures 0 <= Run(g, events, parse).score <= PointsPerCorrectAnswer * MaxQuestions
    decreases |events|
  {
    if |events| > 0 {
      ApplyKeepsInv(g, events[0], parse);
      RunKeepsInv(Apply(g, events[0], parse), events[1..], parse);
    }
  }

  /** The answer buttons as written: enabled while the selected answer is
      falsy. */
  predicate ChoiceOfferedAsWritten(g: Game, option: string) {
    QuestionShown(g) && option in g.question.value.options && !Truthy(g.selectedAnswer)
  }

  /** As written, a question whose correct option is the empty string keeps
      its buttons enabled after that option is chosen, and every further
      click adds five points: two clicks on the first question score ten. */
  lemma EmptyOptionScoresTwice()
    ensures var q := TriviaQuestion("q", [""], "", "h", "e");
      var g := Game(Playing, Some(q), 0, 0, false, 1, false, None, None, None, false);
      var once := AnswerAsWritten(g, "");
      var twice := AnswerAsWritten(once, "");
      && Inv(g) && ChoiceOfferedAsWritten(g, "") && ChoiceOfferedAsWritten(once, "")
      && twice.score == 2 * PointsPerCorrectAnswer
      && !Inv(twice)
  {
  }
}

=== FILE: types.dfy ===
/**
 * The payload and state records of the chat pages: messages, the
 * visualization tagged union and the filter record.  The tag set and the
 * filter fields follow their use sites: the declared enum lacks the
 * trajectory and table tags, and the declared filter record lacks region,
 * depth range and float id.
 */
module Types {
  import opened Wrappers

  datatype Sender = User | Ai

  /** One transcript entry; `id` is opaque (a clock reading in the source). */
  datatype Message = Message(id: string, text: string, sender: Sender)

  /** The discriminant `type` of a visualization payload. */
  datatype VisualizationType =
    | ProfileChart | Map | TimeSeriesChart | MapComparison | DensityMap
    | Welcome | Loading | TrajectoryMap | TableView

  /** The string carried in the payload's `type` field. */
  function TagName(t: VisualizationType): string {
    match t
    case ProfileChart => "profile_chart"
    case Map => "map"
    case TimeSeriesChart => "time_series_chart"
    case MapComparison => "map_comparison"
    case DensityMap => "density_map"
    case Welcome => "welcome"
    case Loading => "loading"
    case TrajectoryMap => "trajectory_map"
    case TableView => "table_view"
  }

  /** Reads a `type` string back; None for a tag outside the closed set. */
  function FromTagName(s: string): (r: Option<VisualizationType>)
    ensures r.Some? ==> TagName(r.value) == s
  {
    if s == "profile_chart" then Some(ProfileChart)
    else if s == "map" then Some(Map)
    else if s == "time_series_chart" then Some(TimeSeriesChart)
    else if s == "map_comparison" then Some(MapComparison)
    else if s == "density_map" then Some(DensityMap)
    else if s == "welcome" then Some(Welcome)
    else if s == "loading" then Some(Loading)
    else if s == "trajectory_map" then Some(TrajectoryMap)
    else if s == "table_view" then Some(TableView)
    else None
  }

  /** Every tag reads back as itself, so the nine tag strings are distinct. */
  lemma TagNameRoundTrip(t: VisualizationType)
    ensures FromTagName(TagName(t)) == Some(t)
  {
  }

  /** A JSON scalar or nested value found in a data row. */
  datatype Value = Null | Str(s: string) | Num(n: real) | Bool(b: bool) | Nested(json: string)

  /** A flat record: its keys in the order `Object.keys` reports them. */
  type Row = seq<(string, Value)>

  datatype ProfilePoint = ProfilePoint(depth: real, value: real)
  datatype TimeSeriesPoint = TimeSeriesPoint(date: string, value: real)
  datatype MapPoint = MapPoint(lat: real, lon: real, id: string)
  /** `density` is documented as lying in [0, 1]; nothing enforces it. */
  datatype DensityPoint = DensityPoint(lat: real, lon: real, density: real)
  datatype PathPoint = PathPoint(lat: real, lon: real, timestamp: string)
  datatype Trajectory = Trajectory(id: string, path: seq<PathPoint>)
  datatype MapComparisonData = MapComparisonData(title: string, points: seq<MapPoint>)

  /** `JSON.parse` followed by the unchecked cast: None when parsing throws. */
  type Parser = string -> Option<VisualizationData>

  /** The visualization payload.  Welcome and loading carry `data: null`;
      a payload whose `type` is outside the closed set keeps its tag and,
      when it has an array `data`, its rows. */
  datatype VisualizationData =
    | WelcomeViz(title: string)
    | LoadingViz(title: string)
    | ProfileChartViz(title: string, profile: seq<ProfilePoint>,
                      xAxisLabel: Option<string>, yAxisLabel: Option<string>)
    | TimeSeriesChartViz(title: string, series: seq<TimeSeriesPoint>,
                         xAxisLabel: Option<string>, yAxisLabel: Option<string>)
    | MapViz(title: string, markers: seq<MapPoint>)
    | MapComparisonViz(title: string, mapA: MapComparisonData, mapB: MapComparisonData)
    | DensityMapViz(title: string, cells: seq<DensityPoint>)
    | TrajectoryMapViz(title: string, trajectories: seq<Trajectory>)
    | TableViewViz(title: string, rows: seq<Row>)
    | UnknownViz(tag: string, title: string, data: Option<seq<Row>>)
  {
    /** The payload's `type` field. */
    function Tag(): string {
      match this
      case WelcomeViz(_) => TagName(Welcome)
      case LoadingViz(_) => TagName(Loading)
      case ProfileChartViz(_, _, _, _) => TagName(ProfileChart)
      case TimeSeriesChartViz(_, _, _, _) => TagName(TimeSeriesChart)
      case MapViz(_, _) => TagName(Map)
      case MapComparisonViz(_, _, _) => TagName(MapComparison)
      case DensityMapViz(_, _) => TagName(DensityMap)
      case TrajectoryMapViz(_, _) => TagName(TrajectoryMap)
      case TableViewViz(_, _) => TagName(TableView)
      case UnknownViz(tag, _, _) => tag
    }

    /** An unknown payload really carries a tag outside the closed set. */
    predicate WellTagged() {
      UnknownViz? ==> FromTagName(tag).None?
    }

    /** `!!visualization.data`: null for welcome and loading; any array or
        object (even an empty array) is truthy. */
    predicate HasData() {
      match this
      case WelcomeViz(_) => false
      case LoadingViz(_) => false
      case UnknownViz(_, _, data) => data.Some?
      case _ => true
    }

    /** A payload that carries data to show: neither welcome nor loading,
        and a truthy `data`. */
    predicate IsDataVisualization() {
      !WelcomeViz? && !LoadingViz? && HasData()
    }
  }

  datatype DateRange = DateRange(start: string, end: string)
  datatype DepthRange = DepthRange(min: string, max: string)

  /** The filter record as its use sites build it; the fields the declared
      type lacks are absent (None) where a page never sets them. */
  datatype Filters = Filters(dateRange: DateRange, sensorType: string, region: string,
                             depthRange: Option<DepthRange>, floatId: Option<string>)

  /** The all-empty filter record used by the explorer's initial state and by
      the summarizer chat and the trivia game for every request. */
  function EmptyFilters(): Filters {
    Filters(DateRange("", ""), "all", "all", Some(DepthRange("", "")), Some(""))
  }

  /** The arguments of one call into the streaming service. */
  datatype Request = Request(message: string, history: seq<Message>, language: string,
                             filters: Filters, persona: string)

  /** What the streaming service delivers for one request: the text chunks in
      arrival order, and whether iteration then ends with a thrown error. */
  datatype Stream = Stream(chunks: seq<string>, fails: bool)

  /** JavaScript truthiness of an optional string: present and non-empty. */
  predicate Truthy(s: Option<string>) {
    s.Some? && s.value != ""
  }

  /** A saved session after `JSON.parse`: each top-level key, None when it is
      missing or null. */
  datatype Snapshot = Snapshot(messages: Option<seq<Message>>, visualization: Option<VisualizationData>,
                               summary: Option<string>, filters: Option<Filters>, language: Option<string>)
}

=== FILE: viz_panel.dfy ===
/**
 * The visualization panel: when the summary box shows, and which screen or
 * renderer a payload is dispatched to by its `type` string.
 */
module VisualizationPanel {
  import opened Wrappers
  import opened Text
  import opened Types
  import opened Transcript
  import DataExplorer
  import App

  const UnsupportedTitle: string := "Unsupported Visualization"

  /** What the panel draws; a renderer receives the whole payload. */
  datatype View =
    | WelcomeScreen(title: string)
    | LoadingScreen(title: string)
    | ChartRenderer(payload: VisualizationData)
    | MapRenderer(payload: VisualizationData)
    | MapComparisonRenderer(payload: VisualizationData)
    | DensityMapRenderer(payload: VisualizationData)
    | TrajectoryMapRenderer(payload: VisualizationData)
    | TableRenderer(payload: VisualizationData)

  /** The "AI Analysis" box shows for a non-empty summary over a payload
      with data. */
  predicate ShowSummary(v: VisualizationData, summary: Option<string>) {
    Truthy(summary) && v.IsDataVisualization()
  }

  /** After a completed stream on the explorer page the box shows exactly
      when the reply has the marker, non-blank text before it, and a
      payload that parses to a visualization with data. */
  lemma ExplorerSummaryShown(page: DataExplorer.ExplorerPage, text: string, chunks: seq<string>,
                             userId: string, aiId: string, parse: Parser)
    requires !AllSpace(text) && FreshId(page.messages, aiId) && userId != aiId
    ensures var r := DataExplorer.SendMessage(page, text, Stream(chunks, false), userId, aiId, parse);
      var full := Concat(chunks);
      ShowSummary(r.visualization, r.summary) <==>
        && Contains(full, DataExplorer.JsonMarker)
        && !AllSpace(Before(full, DataExplorer.JsonMarker))
        && parse(DataExplorer.PayloadText(full)).Some?
        && parse(DataExplorer.PayloadText(full)).value.IsDataVisualization()
  {
    DataExplorer.SendOutcome(page, text, chunks, userId, aiId, parse);
  }

  /** A transport error on the explorer page hides the box, even when the
      chunks before the error had already frozen a non-empty summary. */
  lemma ExplorerErrorHidesSummary(page: DataExplorer.ExplorerPage, text: string, chunks: seq<string>,
                                  userId: string, aiId: string, parse: Parser)
    requires !AllSpace(text) && FreshId(page.messages, aiId) && userId != aiId
    ensures var r := DataExplorer.SendMessage(page, text, Stream(chunks, true), userId, aiId, parse);
      var full := Concat(chunks);
      && !ShowSummary(r.visualization, r.summary)
      && (Contains(full, DataExplorer.JsonMarker) && !AllSpace(Before(full, DataExplorer.JsonMarker))
          ==> Truthy(r.summary))
  {
    DataExplorer.TransportErrorOutcome(page, text, chunks, userId, aiId, parse);
  }

  /** On the original page a transport error also hides the box. */
  lemma AppErrorHidesSummary(st: App.AppState, text: string, chunks: seq<string>,
                             userId: string, aiId: string, parse: Parser)
    requires !AllSpace(text) && FreshId(st.messages, aiId) && userId != aiId
    ensures var r := App.SendMessage(st, text, Stream(chunks, true), userId, aiId, parse);
      !ShowSummary(r.visualization, r.summary)
  {
    App.TransportErrorOutcome(st, text, chunks, userId, aiId, parse);
  }

  /** `renderVisualization`: a switch on the `type` string. */
  function Render(v: VisualizationData): (r: View)
    ensures v.WelcomeViz? ==> r == WelcomeScreen(v.title)
    ensures v.LoadingViz? ==> r == LoadingScreen(v.title)
    ensures v.WellTagged() ==> (r.ChartRenderer? <==> v.ProfileChartViz? || v.TimeSeriesChartViz?)
    ensures v.WellTagged() ==> (r.MapRenderer? <==> v.MapViz?)
    ensures v.WellTagged() ==> (r.MapComparisonRenderer? <==> v.MapComparisonViz?)
    ensures v.WellTagged() ==> (r.DensityMapRenderer? <==> v.DensityMapViz?)
    ensures v.WellTagged() ==> (r.TrajectoryMapRenderer? <==> v.TrajectoryMapViz?)
    ensures v.WellTagged() ==> (r.TableRenderer? <==> v.TableViewViz?)
    ensures v.UnknownViz? && v.WellTagged() ==> r == WelcomeScreen(UnsupportedTitle)
    ensures !r.WelcomeScreen? && !r.LoadingScreen? ==> r.payload == v
  {
    match FromTagName(v.Tag())
    case Some(Welcome) => WelcomeScreen(v.title)
    case Some(Loading) => LoadingScreen(v.title)
    case Some(ProfileChart) => ChartRenderer(v)
    case Some(TimeSeriesChart) => ChartRenderer(v)
    case Some(Map) => MapRenderer(v)
    case Some(MapComparison) => MapComparisonRenderer(v)
    case Some(DensityMap) => DensityMapRenderer(v)
    case Some(TrajectoryMap) => TrajectoryMapRenderer(v)
    case Some(TableView) => TableRenderer(v)
    case None => WelcomeScreen(UnsupportedTitle)
  }

  /** A payload whose data is shown is always handed to a renderer. */
  lemma DataGoesToRenderer(v: VisualizationData)
    requires v.WellTagged() && v.IsDataVisualization() && !v.UnknownViz?
    ensures !Render(v).WelcomeScreen? && !Render(v).LoadingScreen?
    ensures Render(v).payload == v
  {
  }
}

=== FILE: wrappers.dfy ===
/** Failure-compatible wrappers shared by every module of the model. */
module Wrappers {

  /** A value that may be absent: JavaScript's `null`/`undefined`. */
  datatype Option<+T> = None | Some(value: T) {

    /** Returns the value in Some, or `default` when None: the `x || default` idiom. */
    function GetOr(default: T): T {
      match this
      case Some(v) => v
      case None => default
    }
  }

  /** Either a successful value or the error the source would have thrown. */
  datatype Result<+R, +E> = Success(value: R) | Failure(error: E)
}
